=== FILE: README.md ===
# PillBoss core, modelled in Dafny

PillBoss is a patient and medication manager. It has two parts:

- A FastAPI backend keeps patients, medications and the links between them in a database. Every
  patient has an owner.
- A React frontend includes a chat assistant that streams answers from an agent.

This project models the parts of the system whose behaviour can be stated exactly:

- **The chat runtime's JSON-lines framer** (`JsonLineToDataStreamTransformer`). It receives the
  response body in arbitrary text chunks. It cuts the text at newlines, keeping an unfinished line
  in a buffer. It trims every line, parses it, and re-emits each `{type, value}` object as a
  data-stream record `type:JSON(value)\n`. `flush` handles a last line without a newline. Blank and
  malformed lines are skipped.
- **`toCoreMessages`**. It turns the runtime's thread messages into the shape the backend takes:
  - assistant messages lose their reasoning, source and file parts, and tool calls lose
    `argsText`;
  - user messages have their attachments' contents appended;
  - other messages are forwarded unchanged.
- **`JsonLinesModelAdapter.run`**, from the response on:
  - a status that is not OK throws `Status <n>: <body>`;
  - a null body throws `Response body is null`;
  - otherwise the body goes through the framer.

  The once-only abort listener calls `onCancel` unless the abort reason is a detach.
- **The `/patients` routes**: list, read, create, update, delete, list medications, assign a
  medication, and remove one. Each by-id route checks ownership first: 404 when no patient has the
  id, then 400 when the caller is neither the owner nor a superuser.
- **The `/medications` routes**: list, read, create, update, delete. Medications are shared and no
  ownership check is made.
- **The request schemas** in `models.py`: length and range constraints, defaults, and optional
  update fields.
- **The medication retrieval helpers** of the agent:
  - `retrieve_med_docs` returns the notes of the fixed corpus whose key occurs in the lower-cased
    question, or every note when none occurs;
  - `is_med_query` is the keyword whole-word test;
  - `extract_text` gets the text of a message.

How the model is built:

- Each route is a function from the tables before the request to its response and the tables
  after it.
- Each route that changes rows is also a method on a `Store.Session`, proved to follow that
  function.
- The framer is a class `Framer.LineTransformer` with its pending `buffer`. `Transform` is proved
  against the specification function `Framer.Frame`, which cuts the whole text at its newlines.

Where the code and its accompanying descriptions disagree, the model follows the code:

- `run` never calls `onError`.
- The abort listener stays registered after the stream ends.
- `main.py` does not mount the medications router. The routes are modelled as written in
  `medications.py`.

## Model

| member | source | states |
|---|---|---|
| Text.Trim | frontend/src/lib/useJsonLinesChatRuntime.ts:74 | a trimmed line is empty exactly when the line is blank (only JavaScript whitespace), the test `line.length === 0` relies on |
| Text.TrimSlice | frontend/src/lib/useJsonLinesChatRuntime.ts:74 | `trim` keeps one contiguous piece of the line, starting after the leading whitespace; its first and last characters are not whitespace |
| Text.TrimDropsOnlySpace | frontend/src/lib/useJsonLinesChatRuntime.ts:87 | everything `trim` drops, before and after the piece it keeps, is whitespace |
| Text.IndexOf | frontend/src/lib/useJsonLinesChatRuntime.ts:73 | `indexOf("\n")` gives the first newline's position (no newline before it), and "none" (the source's -1) exactly when the text holds no newline |
| Text.IndexOfAfter | frontend/src/lib/useJsonLinesChatRuntime.ts:73-75 | after a newline-free prefix, `indexOf` finds the newline that follows it |
| Text.Lower | backend/agents/rag_utils.py:88 | `lower()` keeps the length and lower-cases character by character |
| Text.LowerIdempotent | backend/agents/rag_utils.py:78 | lower-casing an already lower-cased text changes nothing |
| Text.Contains | backend/agents/rag_utils.py:89 | `key in query_lc`, a substring test; specified by `ContainsAt`, and by `HitsSingle` where it decides a hit |
| Text.ContainsAt | backend/agents/rag_utils.py:89 | `key in query_lc` holds when the key starts at some position of the question |
| Text.NatToDecimal | frontend/src/lib/useJsonLinesChatRuntime.ts:164 | the status is rendered as decimal digits without a leading zero |
| Text.DecimalRoundTrip | frontend/src/lib/useJsonLinesChatRuntime.ts:164 | the decimal rendering of the status reads back as the status |
| Text.Join | backend/agents/rag_utils.py:71 | `" ".join`; a single item is kept as it is, and `SplitJoin` gives the items back from the join |
| Text.SplitJoin | backend/agents/rag_utils.py:71 | joining items that do not hold the separator, then splitting at it, gives the items back |
| Framer.FrameNoNewline | frontend/src/lib/useJsonLinesChatRuntime.ts:73-75 | the loop cuts at every newline: no cut line and not the remaining buffer holds one |
| Framer.Frame | frontend/src/lib/useJsonLinesChatRuntime.ts:72-84 | the cut loop applied to the whole text; specified by `FrameNoNewline`, `FrameJoin`, `FrameUnique` and `FrameIsSplit` |
| Framer.FrameJoin | frontend/src/lib/useJsonLinesChatRuntime.ts:71-75 | framing loses nothing: the cut lines, each followed by its newline, then the buffer, are the whole text |
| Framer.FrameUnique | frontend/src/lib/useJsonLinesChatRuntime.ts:73-75 | framing is the only way to cut a text into newline-free lines and a newline-free tail |
| Framer.FrameAppend | frontend/src/lib/useJsonLinesChatRuntime.ts:71-75 | framing a longer text continues from the buffer left by the shorter one |
| Framer.FrameIsSplit | frontend/src/lib/useJsonLinesChatRuntime.ts:73-75 | the cut lines and the buffer are exactly the pieces between the newlines of the text |
| Framer.EncodeLine | frontend/src/lib/useJsonLinesChatRuntime.ts:74-83 | a cut line gives nothing when it is blank after trimming or does not parse; otherwise exactly one record `type:value\n` of the parsed envelope |
| Framer.Records | frontend/src/lib/useJsonLinesChatRuntime.ts:73-84 | at most one record per line |
| Framer.RecordsAppend | frontend/src/lib/useJsonLinesChatRuntime.ts:73-84 | records are produced line by line, in line order |
| Framer.SkippedLine | frontend/src/lib/useJsonLinesChatRuntime.ts:76-83 | a blank or malformed line contributes nothing, and the lines after it are still processed |
| Framer.EmittedLine | frontend/src/lib/useJsonLinesChatRuntime.ts:77-80 | a line that parses contributes exactly its one record, between the records of the lines before and after it |
| Framer.FeedStep | frontend/src/lib/useJsonLinesChatRuntime.ts:70-85 | feeding chunks is transforming the first chunk, then feeding the rest from the buffer it leaves |
| Framer.Feed | frontend/src/lib/useJsonLinesChatRuntime.ts:70-85 | successive `transform` calls; specified by `FeedStep` and `FeedFrames` |
| Framer.StreamOutput | frontend/src/lib/useJsonLinesChatRuntime.ts:66-97 | every `transform`, then `flush`; specified by `ChunkBoundaryInvariance` and `SplitPointsIrrelevant` |
| Framer.FeedFrames | frontend/src/lib/useJsonLinesChatRuntime.ts:70-85 | feeding chunks one at a time frames their concatenation as a whole: same records, same final buffer |
| Framer.ChunkBoundaryInvariance | frontend/src/lib/useJsonLinesChatRuntime.ts:66-97 | all the transforms and the flush of a stream produce the records of the pieces between the newlines of the concatenated text |
| Framer.SplitPointsIrrelevant | frontend/src/lib/useJsonLinesChatRuntime.ts:66-97 | two deliveries of the same text in different chunks produce the same records |
| Framer.CutFirstLine | frontend/src/lib/useJsonLinesChatRuntime.ts:73-80 | one loop turn keeps the framing of the whole text and adds the cut line's records after the earlier ones |
| Framer.LineTransformer.constructor | frontend/src/lib/useJsonLinesChatRuntime.ts:67 | a new transformer starts with an empty buffer |
| Framer.LineTransformer.Transform | frontend/src/lib/useJsonLinesChatRuntime.ts:70-85 | the new buffer is newline-free; the cut lines with their newlines, then the new buffer, are the old buffer plus the chunk; the output is the records of the framed lines, in order |
| Framer.LineTransformer.Flush | frontend/src/lib/useJsonLinesChatRuntime.ts:86-97 | the output is the records of the pending buffer as one last line: one record when it is not blank and parses, none otherwise |
| CoreMessages.AssistantContent | frontend/src/lib/useJsonLinesChatRuntime.ts:27-41 | no reasoning, source or file part and no tool call with `argsText` is sent; never more parts than the message has |
| CoreMessages.StripArgsText | frontend/src/lib/useJsonLinesChatRuntime.ts:35-39 | the rest of a tool call without `argsText`; specified by `StripArgsTextOnly` |
| CoreMessages.AssistantContentAppend | frontend/src/lib/useJsonLinesChatRuntime.ts:28-41 | parts are handled one at a time, in order |
| CoreMessages.AssistantContentLength | frontend/src/lib/useJsonLinesChatRuntime.ts:28-41 | exactly the local-only parts are removed: the count drops by their number and no more |
| CoreMessages.AssistantContentKeeps | frontend/src/lib/useJsonLinesChatRuntime.ts:28-41 | every other part is sent, stripped, right after the parts kept before it |
| CoreMessages.StripArgsTextOnly | frontend/src/lib/useJsonLinesChatRuntime.ts:35-39 | stripping removes `argsText`, only from tool calls, and keeps the kind and every other property |
| CoreMessages.AttachmentContent | frontend/src/lib/useJsonLinesChatRuntime.ts:51 | the attachments' contents flattened in order; specified by `AttachmentContentAppend` |
| CoreMessages.AttachmentsOf | frontend/src/lib/useJsonLinesChatRuntime.ts:51 | `attachments ?? []`: missing attachments are none; specified through `UserMessage` |
| CoreMessages.AttachmentContentAppend | frontend/src/lib/useJsonLinesChatRuntime.ts:51 | the attachments' contents are flattened one level, attachment by attachment |
| CoreMessages.UserMessage | frontend/src/lib/useJsonLinesChatRuntime.ts:44-53 | a user message keeps its content as a prefix; without attachments it is sent unchanged; one more attachment appends exactly its content |
| CoreMessages.OtherRolesUnchanged | frontend/src/lib/useJsonLinesChatRuntime.ts:55-59 | system messages and messages of unknown roles are forwarded with exactly their content |
| CoreMessages.ToCoreMessage | frontend/src/lib/useJsonLinesChatRuntime.ts:21-26 | the role is kept |
| CoreMessages.ToCoreMessages | frontend/src/lib/useJsonLinesChatRuntime.ts:20-62 | one message out per message in, in order, each with its role |
| RunController.StatusMessage | frontend/src/lib/useJsonLinesChatRuntime.ts:164 | the error message starts with `Status ` and holds the digits, `: ` and the body text |
| RunController.StatusMessageInjective | frontend/src/lib/useJsonLinesChatRuntime.ts:164 | the status and the body text can be read back from the error message |
| RunController.StatusMessageShape | frontend/src/lib/useJsonLinesChatRuntime.ts:164 | after `Status ` come the digits, a colon, a space and the body |
| RunController.ErrorsDistinct | frontend/src/lib/useJsonLinesChatRuntime.ts:162-168 | the two errors `run` throws can always be told apart |
| RunController.Run | frontend/src/lib/useJsonLinesChatRuntime.ts:162-179 | a non-OK status fails with the status message and a null body with its own message, both before any record; otherwise the result is the records of the whole body, whatever its chunks |
| RunController.Step | frontend/src/lib/useJsonLinesChatRuntime.ts:131-137 | `onCancel` calls never decrease, and an abort leaves no listener waiting |
| RunController.Replay | frontend/src/lib/useJsonLinesChatRuntime.ts:131-137 | the signal after a run of events; specified by `ReplayAppend`, `CancelBound`, `AbortedIsFinal` and `FirstAbortDecides` |
| RunController.ReplayAppend | frontend/src/lib/useJsonLinesChatRuntime.ts:131-137 | events are handled one after another |
| RunController.CancelBound | frontend/src/lib/useJsonLinesChatRuntime.ts:131-137 | because the listener is once-only, the `onCancel` calls plus the listeners still waiting never exceed the listeners registered |
| RunController.CancelAtMostOnce | frontend/src/lib/useJsonLinesChatRuntime.ts:131-137 | a single run calls `onCancel` at most once, however often the signal is aborted |
| RunController.AbortedIsFinal | frontend/src/lib/useJsonLinesChatRuntime.ts:131-137 | after the abort, nothing that follows calls `onCancel` |
| RunController.FirstAbortDecides | frontend/src/lib/useJsonLinesChatRuntime.ts:134 | a first abort with a detach reason never calls `onCancel`; any other first abort calls it exactly once |
| RunController.AbortSignal.constructor | frontend/src/lib/useJsonLinesChatRuntime.ts:131-137 | a fresh signal: not aborted, no listener, no call |
| RunController.AbortSignal.AddListener | frontend/src/lib/useJsonLinesChatRuntime.ts:131-137 | registering the listener is one `Listen` step of the signal |
| RunController.AbortSignal.Abort | frontend/src/lib/useJsonLinesChatRuntime.ts:131-137 | aborting is one `Abort` step: waiting listeners fire once unless detached |
| Models.RequiredErrors | backend/app/models.py:62-66 | a required field fails exactly when it is missing, null or breaks its constraint, and then only that field is named |
| Models.OptionalErrors | backend/app/models.py:76-80 | an optional field fails only when a value is sent that breaks its constraint |
| Models.PatientErrors | backend/app/models.py:61-66 | a patient body is accepted exactly when both names are 1 to 255 characters and age, height and weight are positive |
| Models.ValidatePatient | backend/app/models.py:61-71 | a `PatientCreate` body is accepted exactly when all five fields are sent, not null, and meet the `PatientBase` constraints; the accepted columns are exactly the sent values; a refusal names each field that is missing, null or out of bounds, and no other |
| Models.ValidateSent | backend/app/models.py:61-71 | a body sending every column is accepted unchanged exactly when the columns are valid, and otherwise refused naming the fields `PatientErrors` names |
| Models.PatientUpdateErrors | backend/app/models.py:75-80 | an update body is accepted exactly when every field sent with a value meets the `PatientBase` constraint |
| Models.ApplyUpdate | backend/app/api/routes/patients.py:88-89 | `sqlmodel_update` with the fields sent; specified by `ApplyUpdateChangesOnlySent`, `ApplyUpdateKeepsValid` and `FullUpdateReplaces` |
| Models.ApplyUpdateChangesOnlySent | backend/app/api/routes/patients.py:88-89 | only the fields sent with a value change, each to the value sent; the others keep their values |
| Models.ApplyUpdateKeepsValid | backend/app/models.py:75-80 | a valid patient updated by a valid body without nulls stays valid |
| Models.FullUpdateReplaces | backend/app/api/routes/patients.py:88-89 | an update sending every field replaces the record with exactly what was sent |
| Models.UserCreateErrors | backend/app/models.py:8-17 | the failing `UserCreate` fields in declaration order; `ValidateUserCreate` fails exactly when this list is not empty |
| Models.ValidateUserCreate | backend/app/models.py:8-17 | accepted exactly when the email is at most 255 characters, the optional full name at most 255, the password 8 to 40, and neither flag is null; `is_active` left out is true and `is_superuser` left out is false |
| Models.ValidateUserRegister | backend/app/models.py:20-23 | accepted exactly when the email is at most 255 characters, the password 8 to 40 and the full name at most 255; the result holds exactly the sent values |
| Models.UserUpdateErrors | backend/app/models.py:8-34 | `UserUpdate` and `UserUpdateMe`: accepted exactly when each of email, full name and password is left out, null or within its bound, and neither flag `UserUpdate` inherits from `UserBase` is sent as null; a null flag is named in the errors exactly when it is null |
| Models.UpdatePasswordErrors | backend/app/models.py:37-39 | accepted exactly when both passwords are present and 8 to 40 characters long |
| Models.NewPasswordErrors | backend/app/models.py:119-121 | accepted exactly when a token is present and the new password is 8 to 40 characters long |
| Models.MakeToken | backend/app/models.py:109-111 | the token type is `bearer` unless one is given |
| Store.FindPatient | backend/app/api/routes/patients.py:54 | `session.get` finds nothing exactly when no patient has the id, and otherwise a patient with that id |
| Store.FindMedication | backend/app/api/routes/medications.py:39 | `session.get` finds nothing exactly when no medication has the id, and otherwise a medication with that id |
| Store.Authorize | backend/app/api/routes/patients.py:54-58 | 404 exactly when no patient has the id; 400 exactly when the patient exists and the caller is neither a superuser nor its owner; otherwise a patient the caller may touch |
| Store.OwnedBy | backend/app/api/routes/patients.py:40-46 | the listing of a non-superuser holds each of the caller's patients exactly as often as the table does, and no other patient, so its size counts only the caller's patients |
| Store.OwnedByComplete | backend/app/api/routes/patients.py:40-46 | every patient the caller owns is in that listing |
| Store.Visible | backend/app/api/routes/patients.py:28-46 | a superuser sees every row and anyone else exactly their own rows, each as often as the table holds it |
| Store.Window | backend/app/api/routes/patients.py:31 | `.offset(skip).limit(limit)`: the rows from `skip` on, at most `limit` of them; a negative offset or limit fails |
| Store.SliceBound | backend/app/api/routes/patients.py:122 | a Python slice bound counts a negative index from the end and is clamped to the list |
| Store.PySlice | backend/app/api/routes/patients.py:122 | a Python slice is never longer than the list |
| Store.SliceIsWindow | backend/app/api/routes/patients.py:122 | for a non-negative offset and limit, the Python slice and the SQL window give the same rows |
| Store.NegativeSkipCountsFromEnd | backend/app/api/routes/patients.py:122 | for every negative `skip` down to minus the list length, where the SQL window fails, the slice starts `-skip` rows before the end; it holds `limit` rows while `skip + limit` is negative, and once `skip + limit` reaches 0 it stops at that row counted from the start, or at the end, and is empty when that row comes first |
| Store.DistinctCons | backend/app/alembic/versions/f1a2b3c4d5e6_add_patient_medication_link.py:24 | a link list stays free of repeats when an id not in it is added in front |
| Store.DistinctSnoc | backend/app/alembic/versions/f1a2b3c4d5e6_add_patient_medication_link.py:24 | a link list stays free of repeats when an id not in it is appended |
| Store.DistinctTail | backend/app/alembic/versions/f1a2b3c4d5e6_add_patient_medication_link.py:24 | a link list free of repeats stays so without its head, which does not occur again |
| Patients.ReadPatients | backend/app/api/routes/patients.py:22-48 | fails only for a negative offset or limit; the count is the size of everything the caller may see, and of the table for a superuser; the page is the window of that listing from the offset, at most `limit` rows, each one the caller may see |
| Patients.FirstPageHoldsOwned | backend/app/api/routes/patients.py:33-46 | a first page as long as the table holds every patient the caller owns |
| Patients.ReadPatient | backend/app/api/routes/patients.py:51-59 | fails exactly as the ownership check does; otherwise the patient with the id, which the caller may see |
| Patients.Resolve | backend/app/api/routes/patients.py:122 | the medication rows of the links, never more than the links |
| Patients.ResolveExact | backend/app/api/routes/patients.py:122 | when every link names an existing medication, the rows are the linked medications, one per link, in link order |
| Patients.ReadPatientMedications | backend/app/api/routes/patients.py:111-123 | fails exactly as the ownership check does; otherwise the count is the number of linked medications and the page is no longer |
| Patients.PatientMedicationsPaging | backend/app/api/routes/patients.py:122-123 | the count does not depend on the paging, and a page holds the linked medications from the offset on, in link order |
| Patients.Created | backend/app/api/routes/patients.py:62-71 | a body with a field missing, null or out of bounds gets 422 naming the failing fields; an id clash or an age outside the 32-bit column fails with 500; otherwise the new patient has the caller as owner, no medications and exactly the sent fields; a failure changes nothing |
| Patients.CreateThenRead | backend/app/api/routes/patients.py:62-71 | a created patient can be read back by its creator exactly as it was returned |
| Patients.FindPatientFirst | backend/app/api/routes/patients.py:54 | the lookup finds the first row with the id |
| Patients.Updated | backend/app/api/routes/patients.py:74-93 | 422 first, then the ownership check; a null field or an age outside the column fails with 500; otherwise the patient gets the sent fields; a failure changes nothing |
| Patients.UpdateKeepsKeys | backend/app/api/routes/patients.py:88-92 | an update keeps the row's id, owner and medication links, and touches no other row |
| Patients.Deleted | backend/app/api/routes/patients.py:96-108 | fails exactly as the ownership check does and then changes nothing; otherwise one patient row fewer, the medications untouched |
| Patients.DeleteRemovesExactly | backend/app/api/routes/patients.py:106-108 | after a delete no patient has the id, and every other patient stays, in order: the rows before the deleted one keep their positions and the rows after it move up by one |
| Patients.RemoveAtOnly | backend/app/api/routes/patients.py:106 | removing one row of rows with distinct ids leaves no row with its id and keeps every other row |
| Patients.Assigned | backend/app/api/routes/patients.py:126-150 | the ownership check, then 404 for an unknown medication; otherwise the medication is appended to the patient's list unless already there; a failure changes nothing |
| Patients.AssignIdempotent | backend/app/api/routes/patients.py:144-148 | assigning twice is assigning once: same response, same tables |
| Patients.SameIdsSameLookup | backend/app/api/routes/patients.py:134 | the lookup depends only on the ids of the rows |
| Patients.RemoveFirst | backend/app/api/routes/patients.py:172 | `list.remove` drops one occurrence when there is one and changes nothing otherwise |
| Patients.RemoveFirstDistinct | backend/app/api/routes/patients.py:171-172 | in a list without repeats, removal removes the id entirely and keeps every other id |
| Patients.ConsMember | backend/app/api/routes/patients.py:171 | an id in a list other than its head is in its tail |
| Patients.Removed | backend/app/api/routes/patients.py:153-177 | the ownership check, then 404 for an unknown medication; otherwise the same success message whether or not it was linked; a failure changes nothing |
| Patients.RemoveUnlinks | backend/app/api/routes/patients.py:171-177 | after a removal the medication is unlinked from the patient, every other link stays, and removing again changes nothing |
| Patients.CreateKeepsValid | backend/app/api/routes/patients.py:62-71 | creating keeps unique ids, valid patients, rows that fit their columns and links to existing medications |
| Patients.UpdateKeepsValid | backend/app/api/routes/patients.py:74-93 | updating keeps the tables valid |
| Patients.DeleteKeepsValid | backend/app/api/routes/patients.py:96-108 | deleting keeps the tables valid |
| Patients.AssignKeepsValid | backend/app/api/routes/patients.py:126-150 | assigning keeps the link key unique and the links pointing at existing medications |
| Patients.RemoveKeepsValid | backend/app/api/routes/patients.py:153-177 | removing a link keeps the tables valid |
| Patients.CreatePatient | backend/app/api/routes/patients.py:62-71 | the session's new tables and the response are those `Created` gives |
| Patients.UpdatePatient | backend/app/api/routes/patients.py:74-93 | the session's new tables and the response are those `Updated` gives |
| Patients.DeletePatient | backend/app/api/routes/patients.py:96-108 | the session's new tables and the response are those `Deleted` gives |
| Patients.AssignMedicationToPatient | backend/app/api/routes/patients.py:126-150 | the session's new tables and the response are those `Assigned` gives |
| Patients.RemoveMedicationFromPatient | backend/app/api/routes/patients.py:153-177 | the session's new tables and the response are those `Removed` gives |
| Medications.ReadMedications | backend/app/api/routes/medications.py:20-31 | fails only for a negative offset or limit; the count is the size of the table, whoever asks; the page is exactly the window of the table from the offset, at most `limit` rows |
| Medications.ReadMedication | backend/app/api/routes/medications.py:34-42 | 404 exactly when no medication has the id; otherwise the row with the id |
| Medications.Created | backend/app/api/routes/medications.py:45-55 | succeeds exactly when the id is free and the names and dose fit their columns; the new row has no owner and exactly the sent fields; a failure is a 500 and changes nothing |
| Medications.Updated | backend/app/api/routes/medications.py:58-74 | 404 for an unknown id; a null column or a value that does not fit fails with 500; otherwise the sent columns replace the stored ones; a failure changes nothing |
| Medications.ApplyUpdate | backend/app/api/routes/medications.py:70 | `sqlmodel_update` with the columns sent; specified by `UpdateChangesOnlySent` |
| Medications.UpdateChangesOnlySent | backend/app/api/routes/medications.py:70 | only the columns sent with a value change, each to the value sent; the columns left out keep their values |
| Medications.Drop | backend/app/alembic/versions/f1a2b3c4d5e6_add_patient_medication_link.py:23 | the cascade removes every link to the medication and keeps every other link |
| Medications.DropDistinct | backend/app/alembic/versions/f1a2b3c4d5e6_add_patient_medication_link.py:23-24 | a link list without repeats keeps none after the cascade |
| Medications.Unlinked | backend/app/alembic/versions/f1a2b3c4d5e6_add_patient_medication_link.py:23 | the cascade touches every patient's links and nothing else |
| Medications.Deleted | backend/app/api/routes/medications.py:77-87 | 404 exactly when no medication has the id, changing nothing; otherwise one medication row fewer |
| Medications.DeleteRemovesEverywhere | backend/app/api/routes/medications.py:85-87 | after a delete no row has the id and no patient is linked to it, while every other medication and link stays |
| Medications.StillFound | backend/app/api/routes/medications.py:82 | a medication that stays is still found after another is removed |
| Medications.CreateKeepsValid | backend/app/api/routes/medications.py:45-55 | creating keeps the tables valid |
| Medications.UpdateKeepsValid | backend/app/api/routes/medications.py:58-74 | updating keeps the tables valid |
| Medications.DeleteKeepsValid | backend/app/api/routes/medications.py:77-87 | deleting, with its cascade, keeps the tables valid: no link names a deleted medication |
| Medications.RemoveAtKeepsIds | backend/app/api/routes/medications.py:85 | removing one row keeps the remaining ids distinct and the remaining rows fitting |
| Medications.UnlinkedKeepsLinks | backend/app/alembic/versions/f1a2b3c4d5e6_add_patient_medication_link.py:23 | after the cascade every link names a remaining medication, without repeats |
| Medications.CreateMedication | backend/app/api/routes/medications.py:45-55 | the session's new tables and the response are those `Created` gives |
| Medications.UpdateMedication | backend/app/api/routes/medications.py:58-74 | the session's new tables and the response are those `Updated` gives |
| Medications.DeleteMedication | backend/app/api/routes/medications.py:77-87 | the session's new tables and the response are those `Deleted` gives |
| Rag.Notes | backend/agents/rag_utils.py:90 | `list(MED_CORPUS.values())`: every note, in corpus order |
| Rag.Hits | backend/agents/rag_utils.py:89 | never more hits than corpus entries |
| Rag.Retrieve | backend/agents/rag_utils.py:85-90 | exactly the hits when the lower-cased question mentions some key, and every note otherwise; never empty for a non-empty corpus |
| Rag.RetrieveMedDocs | backend/agents/rag_utils.py:85-90 | one to three notes for any question |
| Rag.HitsAppend | backend/agents/rag_utils.py:89 | each entry contributes its note, in corpus order |
| Rag.HitsSingle | backend/agents/rag_utils.py:89 | an entry contributes its note exactly when its key occurs in the question |
| Rag.HitsSubsequence | backend/agents/rag_utils.py:89 | the hits keep some of the notes, in corpus order |
| Rag.RetrieveSubsequence | backend/agents/rag_utils.py:89-90 | the result keeps some of the notes, in corpus order |
| Rag.SubsequenceRefl | backend/agents/rag_utils.py:90 | the whole corpus is a selection of itself |
| Rag.RetrieveFindsMentioned | backend/agents/rag_utils.py:88-89 | every entry whose key occurs in the lower-cased question has its note in the result, after those of earlier matching entries |
| Rag.HitsMentioned | backend/agents/rag_utils.py:89 | every hit is the note of an entry whose key occurs in the question |
| Rag.RetrieveCaseInsensitive | backend/agents/rag_utils.py:88 | retrieval ignores the case of the question |
| Rag.NoMentionGetsAll | backend/agents/rag_utils.py:89-90 | for every question and corpus: there are no hits exactly when no key occurs in the lower-cased question, and then every note is returned |
| Rag.AnyWordAt | backend/agents/rag_utils.py:49-57 | the pattern matches at a position exactly when one of its alternatives occurs there as a whole word |
| Rag.SearchFrom | backend/agents/rag_utils.py:78 | `PHARMA_PATTERN.search` from a position on; specified by `SearchFromSpec` |
| Rag.SearchFromSpec | backend/agents/rag_utils.py:78 | `search` succeeds exactly when some keyword occurs as a whole word at some position |
| Rag.IsMedQuery | backend/agents/rag_utils.py:76-78 | `is_med_query`; specified by `IsMedQuerySpec` and `IsMedQueryCaseInsensitive` |
| Rag.IsMedQuerySpec | backend/agents/rag_utils.py:76-78 | `is_med_query` holds exactly when some keyword occurs as a whole word in the lower-cased text |
| Rag.IsMedQueryCaseInsensitive | backend/agents/rag_utils.py:78 | the test ignores case |
| Rag.KeywordEnds | backend/agents/rag_utils.py:49-56 | every keyword begins and ends with a word character, so `\b` around it means a non-word character or the text end on each side |
| Rag.WordAtIsBoundaryMatch | backend/agents/rag_utils.py:49-57 | for every text, position and keyword, a whole-word occurrence is exactly an occurrence with the regular expression's `\b` on both sides |
| Rag.ExtractText | backend/agents/rag_utils.py:60-73 | a dict without `content` gives the empty text; any other value gives its `str` |
| Rag.ExtractListRoundTrip | backend/agents/rag_utils.py:70-73 | list content is joined with single spaces, alike for objects and dicts, and items without spaces can be split back out |

## Left out

- Parsing and rendering JSON. `JSON.parse` of a line followed by `JSON.stringify` of its value is a
  parameter of the framer, an arbitrary function from a line to an optional envelope. So the model
  holds for every parser, but nothing about JSON syntax is proved.
- Byte decoding and encoding (`TextDecoderStream`, `TextEncoderStream`). The body is modelled as
  the sequence of text chunks the decoder yields.
- The stages after the framer (`DataStreamDecoder`, the tool-result stream, the message
  accumulator) and `asAsyncIterableStream`. These are library code and are not part of this model.
- `fetch`, the request headers and body, `async`, the `onResponse` and `onFinish` callbacks, and
  console logging. These are I/O and callbacks into code that is not part of this model. The
  request body's `messages` is modelled through `toCoreMessages`.
- The abort listener's removal. The listener is never removed after the stream ends, so an abort
  after completion still calls `onCancel`. The model shows this and keeps no notion of "finished".
- Authentication. `CurrentUser` is a parameter of every route. UUID parsing of path parameters
  is not modelled either: ids are natural numbers.
- Row order. SQL without `ORDER BY` has no defined order. The model keeps insertion order.
- Heights, weights and costs are floats in the source and reals in the model. Float range is not
  modelled.
- The `EmailStr` syntax check. Only the email's length bound is modelled.
- Unicode in the retrieval helpers:
  - `lower()` folds ASCII letters only in the model;
  - `\w` is ASCII letters, digits and `_`;
  - the compiled regular expression is modelled by the list of whole words its alternatives
    match.
- Medications.Created: the `Medication`, `MedicationCreate`, `MedicationUpdate` and `MedicationPublic`
  classes are not in `models.py`, so the model accepts any body of the right column types and no 422
  is modelled for the medication routes.
- Medications.Created: the new row has no owner. If `MedicationPublic` requires `owner_id`, as the
  generated client's type does, the response would fail validation with a 500 after the insert is
  committed. The model returns the row, because that response schema is not part of this model.
- Medications.ReadMedication: for the same reason, reading or listing a medication without an owner
  is modelled as a success.
- The `medication` and `patient_medication_link` tables and the `Patient.medications` relationship
  are not declared in `models.py`. Their columns, column types and ON DELETE CASCADE rules are taken
  from the alembic migrations `9b2f1c4a5d7e` (lines 20-29) and `f1a2b3c4d5e6` (lines 18-25).
- Store.Window: SQL offsets and limits are 64-bit. A `skip` or `limit` above 2^63-1 is a 500 in the
  source; the model answers with a page.
- RunController.Run: `ok` is a free field of `Response`. `fetch` sets it exactly for statuses 200 to
  299; `Run`'s contract holds for every combination, so the relation is not imposed.
- NegativeSkipCountsFromEnd: stated for a `skip` no further back than the list length and a
  non-negative `limit`; beyond that the slice is clamped to the start.
- The `users`, `login`, `agent` and `private` routes and the agent graph are not part of this
  model.


=== FILE: core_messages.dfy ===
/** `toCoreMessages`: the conversation history in the shape the backend understands. Assistant
    messages lose the parts only the local runtime uses and the per-chunk argument text of their
    tool calls; user messages get their attachments' contents appended; everything else is
    forwarded as it is. */
module CoreMessages {
  import opened Wrappers
  import Text

  /** One content part of a message: its `type` and its other properties, each as JSON text. */
  datatype Part = Part(kind: string, fields: map<string, string>)

  datatype Attachment = Attachment(content: seq<Part>)

  /** A message of the runtime's thread, as far as `toCoreMessages` reads it; `attachments` is
      None where the message has no such property. */
  datatype ThreadMessage = ThreadMessage(role: string, content: seq<Part>, attachments: Option<seq<Attachment>>)

  /** A message as sent to the backend: only its role and content. */
  datatype CoreMessage = CoreMessage(role: string, content: seq<Part>)

  /** The part kinds an assistant message is stripped of before it is sent again. */
  predicate IsLocalOnly(p: Part) {
    p.kind == "reasoning" || p.kind == "source" || p.kind == "file"
  }

  /** The key removed from tool-call parts. */
  const ArgsText := "argsText"

  /** `const { argsText, ...rest } = part` for tool-call parts; other parts are kept whole. */
  function StripArgsText(p: Part): Part {
    if p.kind == "tool-call" then p.(fields := p.fields - {ArgsText}) else p
  }

  /** The content of an assistant message after the `map` and `filter(Boolean)`. */
  function AssistantContent(parts: seq<Part>): (r: seq<Part>)
    ensures |r| <= |parts|
    ensures forall k :: 0 <= k < |r| ==> !IsLocalOnly(r[k])
    ensures forall k :: 0 <= k < |r| ==> r[k].kind == "tool-call" ==> ArgsText !in r[k].fields
  {
    if parts == [] then []
    else (if IsLocalOnly(parts[0]) then [] else [StripArgsText(parts[0])]) + AssistantContent(parts[1..])
  }

  /** The attachments' contents, flattened one level, in attachment order. */
  function AttachmentContent(attachments: seq<Attachment>): seq<Part> {
    if attachments == [] then [] else attachments[0].content + AttachmentContent(attachments[1..])
  }

  /** `message.attachments ?? []`. */
  function AttachmentsOf(m: ThreadMessage): seq<Attachment> {
    match m.attachments
    case Some(a) => a
    case None => []
  }

  /** One message of `toCoreMessages`, by role. */
  function ToCoreMessage(m: ThreadMessage): (c: CoreMessage)
    ensures c.role == m.role
  {
    if m.role == "assistant" then
      CoreMessage(m.role, AssistantContent(m.content))
    else if m.role == "user" then
      CoreMessage(m.role, m.content + AttachmentContent(AttachmentsOf(m)))
    else
      // "system", and any other role as a fallback
      CoreMessage(m.role, m.content)
  }

  /** `toCoreMessages`: every message converted, one for one, in order. */
  function ToCoreMessages(messages: seq<ThreadMessage>): (r: seq<CoreMessage>)
    ensures |r| == |messages|
    ensures forall k :: 0 <= k < |r| ==> r[k].role == messages[k].role
  {
    seq(|messages|, k requires 0 <= k < |messages| => ToCoreMessage(messages[k]))
  }

  /** The assistant content of two runs of parts is that of the first followed by that of the second:
      the kept parts stay in their order. */
  lemma {:induction false} AssistantContentAppend(a: seq<Part>, b: seq<Part>)
    ensures AssistantContent(a + b) == AssistantContent(a) + AssistantContent(b)
  {
    if a == [] {
      assert a + b == b;
    } else {
      var head := if IsLocalOnly(a[0]) then [] else [StripArgsText(a[0])];
      var ca, cb := AssistantContent(a[1..]), AssistantContent(b);
      assert AssistantContent(a + b) == head + AssistantContent(a[1..] + b) by {
        Text.ConsAppend(a, b);
      }
      assert AssistantContent(a[1..] + b) == ca + cb by {
        AssistantContentAppend(a[1..], b);
      }
      Text.AppendAssoc(head, ca, cb);
    }
  }

  /** How many of the parts are of a local-only kind. */
  function CountLocalOnly(parts: seq<Part>): nat {
    if parts == [] then 0 else (if IsLocalOnly(parts[0]) then 1 else 0) + CountLocalOnly(parts[1..])
  }

  /** Exactly the local-only parts are removed: the count drops by their number and no more. */
  lemma {:induction false} AssistantContentLength(parts: seq<Part>)
    ensures |AssistantContent(parts)| == |parts| - CountLocalOnly(parts)
  {
    if parts != [] {
      AssistantContentLength(parts[1..]);
    }
  }

  /** Every part that is not local-only is sent, stripped, at the position after the parts kept
      before it: the kept parts appear in their original order. */
  lemma AssistantContentKeeps(parts: seq<Part>, k: nat)
    requires k < |parts| && !IsLocalOnly(parts[k])
    ensures var before := AssistantContent(parts[..k]);
            |before| < |AssistantContent(parts)|
            && AssistantContent(parts)[|before|] == StripArgsText(parts[k])
  {
    var before, after := parts[..k], parts[k + 1..];
    assert parts == before + [parts[k]] + after;
    assert AssistantContent([parts[k]]) == [StripArgsText(parts[k])] by {
      assert [parts[k]][1..] == [];
    }
    AssistantContentAppend(before + [parts[k]], after);
    AssistantContentAppend(before, [parts[k]]);
  }

  /** Stripping a part removes its `argsText` property when it is a tool call and changes
      nothing else. */
  lemma StripArgsTextOnly(p: Part, key: string)
    ensures StripArgsText(p).kind == p.kind
    ensures key != ArgsText ==> (key in StripArgsText(p).fields <==> key in p.fields)
    ensures key != ArgsText && key in p.fields ==> StripArgsText(p).fields[key] == p.fields[key]
    ensures ArgsText in StripArgsText(p).fields <==> p.kind != "tool-call" && ArgsText in p.fields
  {
  }

  /** The flattened attachments of two runs of attachments are those of the first run followed
      by those of the second. */
  lemma {:induction false} AttachmentContentAppend(a: seq<Attachment>, b: seq<Attachment>)
    ensures AttachmentContent(a + b) == AttachmentContent(a) + AttachmentContent(b)
  {
    if a == [] {
      assert a + b == b;
    } else {
      var h, ca, cb := a[0].content, AttachmentContent(a[1..]), AttachmentContent(b);
      assert AttachmentContent(a + b) == h + AttachmentContent(a[1..] + b) by {
        Text.ConsAppend(a, b);
      }
      assert AttachmentContent(a[1..] + b) == ca + cb by {
        AttachmentContentAppend(a[1..], b);
      }
      Text.AppendAssoc(h, ca, cb);
    }
  }

  /** A user message keeps its own content as a prefix, followed by each attachment's content in
      turn; one without attachments is sent unchanged. */
  lemma UserMessage(m: ThreadMessage, a: Attachment)
    requires m.role == "user"
    ensures ToCoreMessage(m).content[..|m.content|] == m.content
    ensures m.attachments.None? || m.attachments == Some([]) ==> ToCoreMessage(m).content == m.content
    ensures ToCoreMessage(m.(attachments := Some(AttachmentsOf(m) + [a]))).content
            == ToCoreMessage(m).content + a.content
  {
    var before := AttachmentsOf(m);
    var m' := m.(attachments := Some(before + [a]));
    assert ToCoreMessage(m).content == m.content + AttachmentContent(before);
    assert ToCoreMessage(m').content == m.content + AttachmentContent(before + [a]);
    assert AttachmentContent(before + [a]) == AttachmentContent(before) + a.content by {
      AttachmentContentAppend(before, [a]);
      assert AttachmentContent([a]) == a.content + AttachmentContent([]);
    }
    Text.AppendAssoc(m.content, AttachmentContent(before), a.content);
  }


  /** System messages, and messages of any role other than assistant and user, are forwarded
      with exactly the content they have. */
  lemma OtherRolesUnchanged(m: ThreadMessage)
    requires m.role != "assistant" && m.role != "user"
    ensures ToCoreMessage(m) == CoreMessage(m.role, m.content)
  {
  }
}

=== FILE: framer.dfy ===
/** The JSON-lines framer and re-encoder of the chat runtime: `JsonLineToDataStreamTransformer`
    cuts the response text into newline-terminated lines, keeps the unfinished tail in a buffer
    between chunks, and re-emits every `{type, value}` line as `type:JSON(value)\n`. */
module Framer {
  import opened Wrappers
  import Text

  /** A parsed `{type, value}` line: the `type` as the template string renders it, and the
      text `JSON.stringify` gives for the `value`. */
  datatype Envelope = Envelope(kind: string, value: string)

  /** `JSON.parse` of a trimmed line followed by reading `.type` and stringifying `.value`,
      None where any of these throws. JSON itself is not modelled: the transformer is given
      this function. */
  type EnvelopeParser = string -> Option<Envelope>

  predicate NoNewline(s: string) {
    '\n' !in s
  }

  /** A text cut at its newlines: the complete lines, newline removed, and the unfinished tail. */
  datatype Framed = Framed(lines: seq<string>, rest: string)

  /** The framing the transformer's loop performs: cut at the first newline, again and again. */
  function Frame(s: string): (f: Framed)
    decreases |s|
  {
    match Text.IndexOf(s, '\n')
    case None => Framed([], s)
    case Some(i) =>
      var f := Frame(s[i + 1..]);
      Framed([s[..i]] + f.lines, f.rest)
  }

  /** Framing cuts at every newline: no line and not the tail holds one. */
  lemma {:induction false} FrameNoNewline(s: string)
    ensures NoNewline(Frame(s).rest)
    ensures forall k :: 0 <= k < |Frame(s).lines| ==> NoNewline(Frame(s).lines[k])
    decreases |s|
  {
    var r := Text.IndexOf(s, '\n');
    if r.Some? {
      var i := r.value;
      var f := Frame(s[i + 1..]);
      FrameNoNewline(s[i + 1..]);
      assert Frame(s) == Framed([s[..i]] + f.lines, f.rest);
      forall k | 0 <= k < |Frame(s).lines| ensures NoNewline(Frame(s).lines[k]) {
        if k > 0 { assert Frame(s).lines[k] == f.lines[k - 1]; }
      }
    }
  }

  /** The text the lines were cut from: every line followed by its newline. */
  function JoinLines(lines: seq<string>): string {
    if lines == [] then "" else lines[0] + "\n" + JoinLines(lines[1..])
  }

  lemma {:induction false} JoinLinesAppend(a: seq<string>, b: seq<string>)
    ensures JoinLines(a + b) == JoinLines(a) + JoinLines(b)
  {
    if a == [] {
      assert a + b == b;
    } else {
      assert (a + b)[0] == a[0];
      assert (a + b)[1..] == a[1..] + b;
      JoinLinesAppend(a[1..], b);
      calc {
        JoinLines(a + b);
        a[0] + "\n" + JoinLines(a[1..] + b);
        a[0] + "\n" + (JoinLines(a[1..]) + JoinLines(b));
        (a[0] + "\n" + JoinLines(a[1..])) + JoinLines(b);
      }
    }
  }

  /** Framing loses nothing: the lines, each followed by a newline, then the tail, are the text. */
  lemma {:induction false} FrameJoin(s: string)
    ensures JoinLines(Frame(s).lines) + Frame(s).rest == s
    decreases |s|
  {
    var r := Text.IndexOf(s, '\n');
    if r.None? {
      assert Frame(s) == Framed([], s);
    } else {
      var i := r.value;
      var f := Frame(s[i + 1..]);
      var j := JoinLines(f.lines);
      var head := s[..i] + "\n";
      assert Frame(s).lines == [s[..i]] + f.lines && Frame(s).rest == f.rest;
      assert JoinLines(Frame(s).lines) == head + j by { JoinLinesCons(s[..i], f.lines); }
      assert j + f.rest == s[i + 1..] by { FrameJoin(s[i + 1..]); }
      calc {
        JoinLines(Frame(s).lines) + Frame(s).rest;
        (head + j) + f.rest;
        { Text.AppendAssoc(head, j, f.rest); }
        head + (j + f.rest);
        head + s[i + 1..];
        { CutAt(s, i); }
        s;
      }
    }
  }

  lemma JoinLinesCons(line: string, lines: seq<string>)
    ensures JoinLines([line] + lines) == line + "\n" + JoinLines(lines)
  {
    assert ([line] + lines)[1..] == lines;
  }

  /** Cutting a text at a newline and putting the pieces back together gives the text. */
  lemma CutAt(s: string, i: nat)
    requires i < |s| && s[i] == '\n'
    ensures s[..i] + "\n" + s[i + 1..] == s
  {
    assert s[..i] + "\n" == s[..i + 1];
  }

  /** Framing is the only way to cut a text into newline-free lines and a newline-free tail. */
  lemma {:induction false} FrameUnique(lines: seq<string>, rest: string)
    requires forall k :: 0 <= k < |lines| ==> NoNewline(lines[k])
    requires NoNewline(rest)
    ensures Frame(JoinLines(lines) + rest) == Framed(lines, rest)
  {
    if lines == [] {
      assert JoinLines(lines) + rest == rest;
      assert Text.IndexOf(rest, '\n') == None;
    } else {
      var first, others := lines[0], lines[1..];
      var tail := JoinLines(others) + rest;
      assert Frame(tail) == Framed(others, rest) by {
        NoNewlineTail(lines);
        FrameUnique(others, rest);
      }
      assert JoinLines(lines) + rest == first + "\n" + tail by {
        assert JoinLines(lines) == first + "\n" + JoinLines(others);
        Text.AppendAssoc(first + "\n", JoinLines(others), rest);
      }
      calc {
        Frame(first + "\n" + tail);
        { FirstLine(first, tail); }
        Framed([first] + others, rest);
        { assert [first] + others == lines; }
        Framed(lines, rest);
      }
    }
  }

  /** The lines after the first of newline-free lines are newline-free. */
  lemma NoNewlineTail(lines: seq<string>)
    requires lines != [] && forall k :: 0 <= k < |lines| ==> NoNewline(lines[k])
    ensures NoNewline(lines[0]) && forall k :: 0 <= k < |lines[1..]| ==> NoNewline(lines[1..][k])
  {
    forall k | 0 <= k < |lines[1..]| ensures NoNewline(lines[1..][k]) {
      assert lines[1..][k] == lines[k + 1];
    }
  }

  /** A text made of a newline-free line, a newline and more text is framed as that line
      followed by the framing of the rest. */
  lemma FirstLine(line: string, tail: string)
    requires NoNewline(line)
    ensures Frame(line + "\n" + tail) == Framed([line] + Frame(tail).lines, Frame(tail).rest)
  {
    var s := line + "\n" + tail;
    Text.IndexOfAfter(line, '\n', tail);
    assert s[..|line|] == line;
    assert s[|line| + 1..] == tail;
  }

  /** Re-grouping text cut in two places. */
  lemma Regroup(x: string, y: string, jx: string, r: string, jg: string, gr: string)
    requires x == jx + r && r + y == jg + gr
    ensures x + y == (jx + jg) + gr
  {
    Text.AppendAssoc(jx, r, y);
    Text.AppendAssoc(jx, jg, gr);
  }

  /** Lines without newlines stay so when two runs of them are put together. */
  lemma AllNoNewline(a: seq<string>, b: seq<string>)
    requires forall k :: 0 <= k < |a| ==> NoNewline(a[k])
    requires forall k :: 0 <= k < |b| ==> NoNewline(b[k])
    ensures forall k :: 0 <= k < |a + b| ==> NoNewline((a + b)[k])
  {
    forall k | 0 <= k < |a + b| ensures NoNewline((a + b)[k]) {
      if k < |a| { assert (a + b)[k] == a[k]; }
      else { assert (a + b)[k] == b[k - |a|]; }
    }
  }

  /** Framing a longer text continues from the tail of the shorter one. */
  lemma FrameAppend(x: string, y: string)
    ensures var g := Frame(Frame(x).rest + y);
            Frame(x + y) == Framed(Frame(x).lines + g.lines, g.rest)
  {
    var fx := Frame(x);
    var g := Frame(fx.rest + y);
    assert x + y == JoinLines(fx.lines + g.lines) + g.rest by {
      FrameJoin(x);
      FrameJoin(fx.rest + y);
      Regroup(x, y, JoinLines(fx.lines), fx.rest, JoinLines(g.lines), g.rest);
      JoinLinesAppend(fx.lines, g.lines);
    }
    assert forall k :: 0 <= k < |fx.lines + g.lines| ==> NoNewline((fx.lines + g.lines)[k]) by {
      FrameNoNewline(x);
      FrameNoNewline(fx.rest + y);
      AllNoNewline(fx.lines, g.lines);
    }
    FrameNoNewline(fx.rest + y);
    FrameUnique(fx.lines + g.lines, g.rest);
  }

  /** The framed lines and the tail are exactly the pieces between the newlines of the text. */
  lemma {:induction false} FrameIsSplit(s: string)
    ensures Frame(s).lines + [Frame(s).rest] == Text.Split(s, '\n')
    decreases |s|
  {
    match Text.IndexOf(s, '\n')
    case None =>
    case Some(i) => FrameIsSplit(s[i + 1..]);
  }

  /** What the transformer enqueues for one line it cut off: nothing for a line that is blank
      after trimming or that does not parse, otherwise the one record `type:JSON(value)\n`. */
  function EncodeLine(parse: EnvelopeParser, line: string): (r: seq<string>)
    ensures |r| <= 1
    ensures r == [] <==> Text.Trim(line) == [] || parse(Text.Trim(line)).None?
    ensures r != [] ==> var e := parse(Text.Trim(line)).value; r[0] == e.kind + ":" + e.value + "\n"
  {
    var t := Text.Trim(line);
    if |t| == 0 then []
    else match parse(t)
      case None => []
      case Some(e) => [e.kind + ":" + e.value + "\n"]
  }

  /** The records for a sequence of lines, in line order. */
  function Records(parse: EnvelopeParser, lines: seq<string>): (r: seq<string>)
    ensures |r| <= |lines|
  {
    if lines == [] then [] else EncodeLine(parse, lines[0]) + Records(parse, lines[1..])
  }

  /** Records are produced line by line, in order: the records of two runs of lines are the
      records of the first run followed by those of the second. */
  lemma {:induction false} RecordsAppend(parse: EnvelopeParser, a: seq<string>, b: seq<string>)
    ensures Records(parse, a + b) == Records(parse, a) + Records(parse, b)
  {
    if a == [] {
      assert a + b == b;
    } else {
      var e, ra, rb := EncodeLine(parse, a[0]), Records(parse, a[1..]), Records(parse, b);
      assert Records(parse, a + b) == e + Records(parse, a[1..] + b) by {
        Text.ConsAppend(a, b);
      }
      assert Records(parse, a[1..] + b) == ra + rb by {
        RecordsAppend(parse, a[1..], b);
      }
      assert Records(parse, a) == e + ra;
      Text.AppendAssoc(e, ra, rb);
    }
  }

  /** A blank or malformed line is skipped and the lines after it are still processed. */
  lemma SkippedLine(parse: EnvelopeParser, before: seq<string>, line: string, after: seq<string>)
    requires Text.Trim(line) == [] || parse(Text.Trim(line)).None?
    ensures Records(parse, before + [line] + after) == Records(parse, before) + Records(parse, after)
  {
    var rb, ra := Records(parse, before), Records(parse, after);
    assert Records(parse, [line]) == [] by { RecordsSingle(parse, line); }
    assert Records(parse, before + [line] + after) == rb + [] + ra by {
      RecordsAround(parse, before, line, after);
    }
    assert rb + [] == rb;
  }

  lemma RecordsSingle(parse: EnvelopeParser, line: string)
    ensures Records(parse, [line]) == EncodeLine(parse, line)
  {
    assert [line][1..] == [];
  }

  lemma RecordsAround(parse: EnvelopeParser, before: seq<string>, line: string, after: seq<string>)
    ensures Records(parse, before + [line] + after)
         == Records(parse, before) + Records(parse, [line]) + Records(parse, after)
  {
    RecordsAppend(parse, before + [line], after);
    RecordsAppend(parse, before, [line]);
  }

  /** A line that parses produces exactly one record, placed after the records of the lines
      before it and before those of the lines after it. */
  lemma EmittedLine(parse: EnvelopeParser, before: seq<string>, line: string, after: seq<string>)
    requires Text.Trim(line) != [] && parse(Text.Trim(line)).Some?
    ensures var e := parse(Text.Trim(line)).value;
            Records(parse, before + [line] + after)
              == Records(parse, before) + [e.kind + ":" + e.value + "\n"] + Records(parse, after)
  {
    RecordsAround(parse, before, line, after);
    RecordsSingle(parse, line);
  }

  /** Concatenation of the chunks delivered to the transformer. */
  function Concat(chunks: seq<string>): string {
    if chunks == [] then "" else chunks[0] + Concat(chunks[1..])
  }

  /** What `transform` produces when called with each chunk in turn, starting from `buffer`:
      the records enqueued, and the buffer left pending. */
  function Feed(parse: EnvelopeParser, buffer: string, chunks: seq<string>): (seq<string>, string)
    decreases |chunks|
  {
    if chunks == [] then ([], buffer)
    else
      var f := Frame(buffer + chunks[0]);
      var (out, rest) := Feed(parse, f.rest, chunks[1..]);
      (Records(parse, f.lines) + out, rest)
  }

  /** Feeding the chunks from position `i` on is transforming chunk `i`, then feeding the rest
      from the buffer it leaves. */
  lemma FeedStep(parse: EnvelopeParser, buffer: string, chunks: seq<string>, i: nat)
    requires i < |chunks|
    ensures var f := Frame(buffer + chunks[i]);
            var next := Feed(parse, f.rest, chunks[i + 1..]);
            Feed(parse, buffer, chunks[i..]) == (Records(parse, f.lines) + next.0, next.1)
  {
    assert chunks[i..][0] == chunks[i];
    assert chunks[i..][1..] == chunks[i + 1..];
  }

  /** Everything a fresh transformer enqueues over a whole stream: each chunk, then `flush`. */
  function StreamOutput(parse: EnvelopeParser, chunks: seq<string>): seq<string> {
    var (out, rest) := Feed(parse, "", chunks);
    out + Records(parse, [rest])
  }

  /** Feeding chunks one by one frames their concatenation as a whole. */
  lemma {:induction false} FeedFrames(parse: EnvelopeParser, buffer: string, chunks: seq<string>)
    requires NoNewline(buffer)
    ensures var f := Frame(buffer + Concat(chunks));
            Feed(parse, buffer, chunks) == (Records(parse, f.lines), f.rest)
    decreases |chunks|
  {
    if chunks == [] {
      assert buffer + Concat(chunks) == buffer;
      assert Text.IndexOf(buffer, '\n') == None;
      assert Frame(buffer) == Framed([], buffer);
    } else {
      var c, more := chunks[0], Concat(chunks[1..]);
      var f := Frame(buffer + c);
      var g := Frame(f.rest + more);
      FrameNoNewline(buffer + c);
      var next := Feed(parse, f.rest, chunks[1..]);
      assert Feed(parse, buffer, chunks) == (Records(parse, f.lines) + next.0, next.1);
      assert next == (Records(parse, g.lines), g.rest) by { FeedFrames(parse, f.rest, chunks[1..]); }
      assert buffer + Concat(chunks) == (buffer + c) + more by { Text.AppendAssoc(buffer, c, more); }
      assert Frame((buffer + c) + more) == Framed(f.lines + g.lines, g.rest) by {
        FrameAppend(buffer + c, more);
      }
      assert Records(parse, f.lines + g.lines) == Records(parse, f.lines) + Records(parse, g.lines) by {
        RecordsAppend(parse, f.lines, g.lines);
      }
    }
  }

  /** Chunk-boundary invariance: the records of a whole stream are those of the pieces between
      its newlines, whatever the split points of the chunks. */
  lemma ChunkBoundaryInvariance(parse: EnvelopeParser, chunks: seq<string>)
    ensures StreamOutput(parse, chunks) == Records(parse, Text.Split(Concat(chunks), '\n'))
  {
    var s := Concat(chunks);
    FeedFrames(parse, "", chunks);
    assert "" + s == s;
    FrameIsSplit(s);
    RecordsAppend(parse, Frame(s).lines, [Frame(s).rest]);
  }

  /** Two deliveries of the same text produce the same records. */
  lemma SplitPointsIrrelevant(parse: EnvelopeParser, chunks1: seq<string>, chunks2: seq<string>)
    requires Concat(chunks1) == Concat(chunks2)
    ensures StreamOutput(parse, chunks1) == StreamOutput(parse, chunks2)
  {
    ChunkBoundaryInvariance(parse, chunks1);
    ChunkBoundaryInvariance(parse, chunks2);
  }

  /** One turn of the transformer's loop: cutting off the first line of the buffer keeps the
      framing of the whole text and adds that line's records after the earlier ones. */
  lemma CutFirstLine(parse: EnvelopeParser, whole: string, cut: seq<string>, buffer: string, idx: nat)
    requires Frame(whole) == Framed(cut + Frame(buffer).lines, Frame(buffer).rest)
    requires Text.IndexOf(buffer, '\n') == Some(idx)
    ensures var b := buffer[idx + 1..];
            Frame(whole) == Framed((cut + [buffer[..idx]]) + Frame(b).lines, Frame(b).rest)
    ensures Records(parse, cut + [buffer[..idx]]) == Records(parse, cut) + EncodeLine(parse, buffer[..idx])
  {
    var b, line := buffer[idx + 1..], buffer[..idx];
    assert Frame(buffer) == Framed([line] + Frame(b).lines, Frame(b).rest);
    assert cut + ([line] + Frame(b).lines) == (cut + [line]) + Frame(b).lines by {
      Text.AppendAssoc(cut, [line], Frame(b).lines);
    }
    assert Records(parse, cut + [line]) == Records(parse, cut) + Records(parse, [line]) by {
      RecordsAppend(parse, cut, [line]);
    }
    RecordsSingle(parse, line);
  }

  /** `JsonLineToDataStreamTransformer`: one per response, owning its pending-line buffer. */
  class LineTransformer {
    const parse: EnvelopeParser
    var buffer: string

    constructor (parse: EnvelopeParser)
      ensures this.parse == parse && buffer == ""
    {
      this.parse := parse;
      buffer := "";
    }

    /** `transform`: appends the chunk, then cuts off and re-encodes every complete line.
        Returns what is enqueued, in order. */
    method Transform(chunk: string) returns (out: seq<string>)
      modifies this
      ensures NoNewline(buffer)
      ensures JoinLines(Frame(old(buffer) + chunk).lines) + buffer == old(buffer) + chunk
      ensures buffer == Frame(old(buffer) + chunk).rest
      ensures out == Records(parse, Frame(old(buffer) + chunk).lines)
    {
      buffer := buffer + chunk;
      ghost var whole := buffer;
      ghost var cut: seq<string> := [];
      out := [];
      while Text.IndexOf(buffer, '\n').Some?
        invariant Frame(whole) == Framed(cut + Frame(buffer).lines, Frame(buffer).rest)
        invariant out == Records(parse, cut)
        decreases |buffer|
      {
        var idx := Text.IndexOf(buffer, '\n').value;
        var line := Text.Trim(buffer[..idx]);
        CutFirstLine(parse, whole, cut, buffer, idx);
        cut := cut + [buffer[..idx]];
        buffer := buffer[idx + 1..];
        if |line| == 0 {
          continue;
        }
        match parse(line)
        case Some(e) =>
          out := out + [e.kind + ":" + e.value + "\n"];
        case None =>
          // the source logs the failure to the console and goes on with the next line
      }
      assert Frame(buffer) == Framed([], buffer);
      assert cut + [] == cut;
      FrameJoin(whole);
      FrameNoNewline(whole);
    }

    /** `flush`: a non-blank pending line is re-encoded as a last record, newline or not. */
    method Flush() returns (out: seq<string>)
      ensures out == Records(parse, [buffer])
    {
      var line := Text.Trim(buffer);
      out := [];
      if |line| > 0 {
        match parse(line)
        case Some(e) =>
          out := [e.kind + ":" + e.value + "\n"];
        case None =>
          // logged to the console on flush
      }
    }
  }
}

=== FILE: medications.dfy ===
/** The `/medications` routes. Medications are shared: no route checks who owns one, and the
    caller is not a parameter of any of them. As for patients, each route is a function from the
    tables before the request to the response and the tables after it, and the handlers that
    change rows are methods on the session that follow those functions. */
module Medications {
  import opened Wrappers
  import Models
  import opened Store

  const MedicationDeleted := "Medication deleted successfully"

  /** `read_medications`: a page of the whole table, whoever asks, and the size of the table. */
  function ReadMedications(t: Tables, skip: int, limit: int): (r: Result<Page<Medication>, Error>)
    ensures r.Failure? <==> skip < 0 || limit < 0
    ensures r.Success? ==> r.value.count == |t.medications| && |r.value.data| <= limit
    ensures r.Success? ==> Window(t.medications, skip, limit) == Success(r.value.data)
    ensures r.Success? ==> forall k :: 0 <= k < |r.value.data| ==>
              skip + k < |t.medications| && r.value.data[k] == t.medications[skip + k]
  {
    match Window(t.medications, skip, limit)
    case Failure(e) => Failure(e)
    case Success(rows) => Success(Page(rows, |t.medications|))
  }

  /** `read_medication`: the row with the id, or 404. */
  function ReadMedication(t: Tables, id: Id): (r: Result<Medication, Error>)
    ensures r.Failure? <==> FindMedication(t.medications, id).None?
    ensures r.Failure? ==> r.error == MedicationNotFound
    ensures r.Success? ==> r.value.id == id && r.value in t.medications
  {
    match FindMedication(t.medications, id)
    case None => Failure(MedicationNotFound)
    case Some(k) => Success(t.medications[k])
  }

  /** `create_medication`: the new row is appended with no owner, whoever creates it. `newId` is
      the drawn UUID; one already in use, or columns that do not fit, make the insert fail. */
  function Created(t: Tables, newId: Id, body: MedicationFields): (r: (Result<Medication, Error>, Tables))
    ensures r.0.Success? <==> FindMedication(t.medications, newId).None? && FitsColumns(body)
    ensures r.0.Failure? ==> r.0.error == ServerError && r.1 == t
    ensures r.0.Success? ==> r.0.value.ownerId.None? && r.0.value.id == newId && r.0.value.fields == body
                             && r.1.medications == t.medications + [r.0.value] && r.1.patients == t.patients
  {
    if FindMedication(t.medications, newId).Some? || !FitsColumns(body) then (Failure(ServerError), t)
    else
      var m := Medication(newId, None, body);
      (Success(m), t.(medications := t.medications + [m]))
  }

  /** A `MedicationUpdate` body: every column optional. */
  datatype MedicationUpdate = MedicationUpdate(
    brandName: Models.Patch<string>, generic: Models.Patch<string>,
    doseMg: Models.Patch<int>, costUsd: Models.Patch<real>)

  predicate SendsNull(u: MedicationUpdate) {
    u.brandName.Null? || u.generic.Null? || u.doseMg.Null? || u.costUsd.Null?
  }

  function ApplyUpdate(f: MedicationFields, u: MedicationUpdate): MedicationFields {
    MedicationFields(Models.Pick(u.brandName, f.brandName), Models.Pick(u.generic, f.generic),
                     Models.Pick(u.doseMg, f.doseMg), Models.Pick(u.costUsd, f.costUsd))
  }

  /** `update_medication`: the sent columns replace the stored ones; a column sent as null, every
      column being NOT NULL, or a value that does not fit its column makes the commit fail. */
  function Updated(t: Tables, id: Id, u: MedicationUpdate): (r: (Result<Medication, Error>, Tables))
    ensures FindMedication(t.medications, id).None? ==> r.0 == Failure(MedicationNotFound)
    ensures r.0.Success? <==> FindMedication(t.medications, id).Some? && !SendsNull(u)
                              && FitsColumns(ApplyUpdate(t.medications[FindMedication(t.medications, id).value].fields, u))
    ensures r.0.Failure? ==> r.1 == t
    ensures r.0.Failure? && FindMedication(t.medications, id).Some? ==> r.0.error == ServerError
    ensures r.0.Success? ==>
              var k := FindMedication(t.medications, id).value;
              r.0.value.id == id && r.0.value.ownerId == t.medications[k].ownerId
              && r.1 == t.(medications := t.medications[k := r.0.value])
  {
    match FindMedication(t.medications, id)
    case None => (Failure(MedicationNotFound), t)
    case Some(k) =>
      var fields := ApplyUpdate(t.medications[k].fields, u);
      if SendsNull(u) || !FitsColumns(fields) then (Failure(ServerError), t)
      else
        var m := t.medications[k].(fields := fields);
        (Success(m), t.(medications := t.medications[k := m]))
  }

  /** Only the columns that were sent change, each to the value sent. */
  lemma UpdateChangesOnlySent(t: Tables, id: Id, u: MedicationUpdate)
    requires Updated(t, id, u).0.Success?
    ensures var m := Updated(t, id, u).0.value;
            var before := t.medications[FindMedication(t.medications, id).value].fields;
            (u.brandName.Unset? ==> m.fields.brandName == before.brandName)
            && (u.brandName.Set? ==> m.fields.brandName == u.brandName.value)
            && (u.generic.Unset? ==> m.fields.generic == before.generic)
            && (u.generic.Set? ==> m.fields.generic == u.generic.value)
            && (u.doseMg.Unset? ==> m.fields.doseMg == before.doseMg)
            && (u.doseMg.Set? ==> m.fields.doseMg == u.doseMg.value)
            && (u.costUsd.Unset? ==> m.fields.costUsd == before.costUsd)
            && (u.costUsd.Set? ==> m.fields.costUsd == u.costUsd.value)
  {
  }

  /** `xs` without any occurrence of `m`, the others in order. */
  function Drop(xs: seq<Id>, m: Id): (r: seq<Id>)
    ensures m !in r
    ensures forall y :: y in xs && y != m ==> y in r
    ensures forall y :: y in r ==> y in xs
  {
    if xs == [] then []
    else (if xs[0] == m then [] else [xs[0]]) + Drop(xs[1..], m)
  }

  /** A list without duplicates keeps none after an occurrence is dropped. */
  lemma {:induction false} DropDistinct(xs: seq<Id>, m: Id)
    requires Distinct(xs)
    ensures Distinct(Drop(xs, m))
  {
    if xs != [] {
      DistinctTail(xs);
      DropDistinct(xs[1..], m);
      var rest := Drop(xs[1..], m);
      if xs[0] != m {
        assert Drop(xs, m) == [xs[0]] + rest;
        DistinctCons(xs[0], rest);
      } else {
        assert Drop(xs, m) == [] + rest;
      }
    }
  }


  /** The patients with every link to `m` removed: what the link table's ON DELETE CASCADE does. */
  function Unlinked(ps: seq<Patient>, m: Id): (r: seq<Patient>)
    ensures |r| == |ps|
    ensures forall k :: 0 <= k < |ps| ==> r[k] == ps[k].(medications := Drop(ps[k].medications, m))
  {
    seq(|ps|, k requires 0 <= k < |ps| => ps[k].(medications := Drop(ps[k].medications, m)))
  }

  /** `delete_medication`: the row is removed, and every patient's link to it with it. */
  function Deleted(t: Tables, id: Id): (r: (Result<string, Error>, Tables))
    ensures r.0.Failure? <==> FindMedication(t.medications, id).None?
    ensures r.0.Failure? ==> r.0.error == MedicationNotFound && r.1 == t
    ensures r.0.Success? ==> r.0.value == MedicationDeleted && |r.1.medications| == |t.medications| - 1
  {
    match FindMedication(t.medications, id)
    case None => (Failure(MedicationNotFound), t)
    case Some(k) =>
      (Success(MedicationDeleted),
       Tables(Unlinked(t.patients, id), t.medications[..k] + t.medications[k + 1..]))
  }

  /** After a delete no row has the id and no patient is linked to it, while every other
      medication and every other link stays. */
  lemma DeleteRemovesEverywhere(t: Tables, id: Id)
    requires Valid(t) && Deleted(t, id).0.Success?
    ensures var after := Deleted(t, id).1;
            FindMedication(after.medications, id).None?
            && (forall m :: m in t.medications && m.id != id ==> m in after.medications)
            && |after.patients| == |t.patients|
            && forall k :: 0 <= k < |t.patients| ==>
                 id !in after.patients[k].medications
                 && forall m :: m in t.patients[k].medications && m != id ==> m in after.patients[k].medications
  {
    var k := FindMedication(t.medications, id).value;
    var after := Deleted(t, id).1;
    assert after.medications == t.medications[..k] + t.medications[k + 1..];
    forall j | 0 <= j < |after.medications| ensures after.medications[j].id != id {
      if j < k {
        assert after.medications[j] == t.medications[j];
      } else {
        assert after.medications[j] == t.medications[j + 1];
      }
    }
    forall m | m in t.medications && m.id != id ensures m in after.medications {
      var j :| 0 <= j < |t.medications| && t.medications[j] == m;
      if j < k {
        assert after.medications[j] == m;
      } else {
        assert after.medications[j - 1] == m;
      }
    }
  }

  /** A medication that stays in the table is still found after another one is removed. */
  lemma StillFound(ms: seq<Medication>, k: nat, m: Id)
    requires k < |ms| && m != ms[k].id && FindMedication(ms, m).Some?
    ensures FindMedication(ms[..k] + ms[k + 1..], m).Some?
  {
    var j := FindMedication(ms, m).value;
    var rest := ms[..k] + ms[k + 1..];
    assert j != k;
    if j < k {
      assert rest[j] == ms[j];
    } else {
      assert rest[j - 1] == ms[j];
    }
  }

  /** Every route that changes rows keeps the tables valid. */
  lemma CreateKeepsValid(t: Tables, newId: Id, body: MedicationFields)
    requires Valid(t)
    ensures Valid(Created(t, newId, body).1)
  {
    var (r, after) := Created(t, newId, body);
    if r.Success? {
      var n := |t.medications|;
      forall m | FindMedication(t.medications, m).Some? ensures FindMedication(after.medications, m).Some? {
        var j := FindMedication(t.medications, m).value;
        assert after.medications[j] == t.medications[j];
      }
      forall j | 0 <= j < |after.medications| ensures FitsColumns(after.medications[j].fields) {
        if j < n {
          assert after.medications[j] == t.medications[j];
        }
      }
      forall i, j | 0 <= i < j < |after.medications| ensures after.medications[i].id != after.medications[j].id {
        if j == n {
          assert after.medications[i] == t.medications[i];
        } else {
          assert after.medications[i] == t.medications[i] && after.medications[j] == t.medications[j];
        }
      }
    }
  }

  lemma UpdateKeepsValid(t: Tables, id: Id, u: MedicationUpdate)
    requires Valid(t)
    ensures Valid(Updated(t, id, u).1)
  {
    var (r, after) := Updated(t, id, u);
    if r.Success? {
      var k := FindMedication(t.medications, id).value;
      forall m | FindMedication(t.medications, m).Some? ensures FindMedication(after.medications, m).Some? {
        var j := FindMedication(t.medications, m).value;
        assert after.medications[j].id == m;
      }
      forall i, j | 0 <= i < j < |after.medications| ensures after.medications[i].id != after.medications[j].id {
        assert after.medications[i].id == t.medications[i].id && after.medications[j].id == t.medications[j].id;
      }
    }
  }

  lemma DeleteKeepsValid(t: Tables, id: Id)
    requires Valid(t)
    ensures Valid(Deleted(t, id).1)
  {
    var (r, after) := Deleted(t, id);
    if r.Success? {
      var k := FindMedication(t.medications, id).value;
      assert after.medications == t.medications[..k] + t.medications[k + 1..];
      RemoveAtKeepsIds(t.medications, k);
      UnlinkedKeepsLinks(t, k);
    }
  }

  /** Removing one row keeps the remaining ids distinct and the remaining rows fitting. */
  lemma RemoveAtKeepsIds(ms: seq<Medication>, k: nat)
    requires k < |ms|
    requires forall i, j :: 0 <= i < j < |ms| ==> ms[i].id != ms[j].id
    requires forall j :: 0 <= j < |ms| ==> FitsColumns(ms[j].fields)
    ensures var rest := ms[..k] + ms[k + 1..];
            (forall i, j :: 0 <= i < j < |rest| ==> rest[i].id != rest[j].id)
            && forall j :: 0 <= j < |rest| ==> FitsColumns(rest[j].fields)
  {
    var rest := ms[..k] + ms[k + 1..];
    forall j | 0 <= j < |rest| ensures FitsColumns(rest[j].fields) {
      assert rest[j] == ms[if j < k then j else j + 1];
    }
    forall i, j | 0 <= i < j < |rest| ensures rest[i].id != rest[j].id {
      var i', j' := if i < k then i else i + 1, if j < k then j else j + 1;
      assert rest[i] == ms[i'] && rest[j] == ms[j'];
    }
  }

  /** Unlinking the medication at position `k` from every patient leaves every patient valid,
      without repeated links, and with links only to the medications that remain. */
  lemma UnlinkedKeepsLinks(t: Tables, k: nat)
    requires Valid(t) && k < |t.medications|
    ensures var ps, id := Unlinked(t.patients, t.medications[k].id), t.medications[k].id;
            var ms := t.medications[..k] + t.medications[k + 1..];
            (forall p :: 0 <= p < |ps| ==> Models.ValidPatient(ps[p].fields))
            && (forall p :: 0 <= p < |ps| ==> Distinct(ps[p].medications))
            && (forall p, m :: 0 <= p < |ps| && m in ps[p].medications ==> FindMedication(ms, m).Some?)
  {
    var id := t.medications[k].id;
    var ps := Unlinked(t.patients, id);
    forall p | 0 <= p < |ps| ensures Distinct(ps[p].medications) {
      DropDistinct(t.patients[p].medications, id);
    }
    forall p, m | 0 <= p < |ps| && m in ps[p].medications
      ensures FindMedication(t.medications[..k] + t.medications[k + 1..], m).Some?
    {
      assert m in t.patients[p].medications && m != id;
      StillFound(t.medications, k, m);
    }
  }


  method CreateMedication(db: Session, newId: Id, body: MedicationFields) returns (r: Result<Medication, Error>)
    modifies db
    ensures (r, db.State()) == Created(old(db.State()), newId, body)
  {
    if FindMedication(db.medications, newId).Some? || !FitsColumns(body) {
      return Failure(ServerError);
    }
    var med := Medication(newId, None, body);
    db.medications := db.medications + [med];
    return Success(med);
  }

  method UpdateMedication(db: Session, id: Id, u: MedicationUpdate) returns (r: Result<Medication, Error>)
    modifies db
    ensures (r, db.State()) == Updated(old(db.State()), id, u)
  {
    var found := FindMedication(db.medications, id);
    if found.None? {
      return Failure(MedicationNotFound);
    }
    var med := db.medications[found.value];
    var fields := ApplyUpdate(med.fields, u);
    if SendsNull(u) || !FitsColumns(fields) {
      return Failure(ServerError);
    }
    med := med.(fields := fields);
    db.medications := db.medications[found.value := med];
    return Success(med);
  }

  method DeleteMedication(db: Session, id: Id) returns (r: Result<string, Error>)
    modifies db
    ensures (r, db.State()) == Deleted(old(db.State()), id)
  {
    var found := FindMedication(db.medications, id);
    if found.None? {
      return Failure(MedicationNotFound);
    }
    var k := found.value;
    db.medications := db.medications[..k] + db.medications[k + 1..];
    db.patients := Unlinked(db.patients, id);
    return Success(MedicationDeleted);
  }
}

=== FILE: models.dfy ===
/** The request schemas of the backend: their field constraints and defaults, as the web framework
    checks them before a route runs. A request body is given field by field, with None for a field
    the JSON body does not hold; validation either yields the model instance, defaults filled in,
    or the names of the fields that fail, in declaration order (the framework's 422 response). */
module Models {
  import opened Wrappers

  /** The longest email, full name, first or last name accepted. */
  const MaxLength := 255

  /** `str = Field(min_length=1, max_length=255)`: first and last names. */
  predicate NameOk(s: string) {
    1 <= |s| <= MaxLength
  }

  /** `max_length=255` on emails and full names. The email syntax check is not modelled. */
  predicate BoundedOk(s: string) {
    |s| <= MaxLength
  }

  /** `Field(min_length=8, max_length=40)` on every password. */
  predicate PasswordOk(s: string) {
    8 <= |s| <= 40
  }

  /** An optional field: absent or null gives None, and a present value must pass `ok`. */
  predicate OptionalOk(v: Option<string>, ok: string -> bool) {
    v.None? || ok(v.value)
  }

  /** A required field: the value must be present (neither missing nor null) and pass the check. */
  function RequiredErrors<T>(name: string, v: Option<T>, ok: T -> bool): (errs: seq<string>)
    ensures errs == [] <==> v.Some? && ok(v.value)
    ensures errs != [] ==> errs == [name]
  {
    if v.Some? && ok(v.value) then [] else [name]
  }

  function OptionalErrors(name: string, v: Option<string>, ok: string -> bool): (errs: seq<string>)
    ensures errs == [] <==> OptionalOk(v, ok)
    ensures errs != [] ==> errs == [name]
  {
    if OptionalOk(v, ok) then [] else [name]
  }

  // ---------------------------------------------------------------- patients

  /** The columns of `PatientBase`. Heights and weights are real numbers here, not floats. */
  datatype PatientFields = PatientFields(firstName: string, lastName: string, age: int, heightCm: real, weightKg: real)

  /** The constraints of `PatientBase`, which every stored patient satisfies. */
  predicate ValidPatient(p: PatientFields) {
    NameOk(p.firstName) && NameOk(p.lastName) && p.age > 0 && p.heightCm > 0.0 && p.weightKg > 0.0
  }

  /** The fields of a `PatientCreate` body that fail their constraint, in declaration order. */
  function PatientErrors(p: PatientFields): (errs: seq<string>)
    ensures errs == [] <==> ValidPatient(p)
    ensures |errs| <= 5
  {
    (if NameOk(p.firstName) then [] else ["first_name"])
    + (if NameOk(p.lastName) then [] else ["last_name"])
    + (if p.age > 0 then [] else ["age"])
    + (if p.heightCm > 0.0 then [] else ["height_cm"])
    + (if p.weightKg > 0.0 then [] else ["weight_kg"])
  }

  /** A `PatientCreate` body, field by field: None for a field the JSON body leaves out or sends as
      null, both of which the framework rejects for these required fields. */
  datatype PatientIn = PatientIn(firstName: Option<string>, lastName: Option<string>, age: Option<int>,
                                 heightCm: Option<real>, weightKg: Option<real>)

  /** The names of `PatientBase`'s fields, as the framework reports them. */
  const PatientFieldNames := ["first_name", "last_name", "age", "height_cm", "weight_kg"]

  /** The body that sends exactly the given columns. */
  function Sent(p: PatientFields): PatientIn {
    PatientIn(Some(p.firstName), Some(p.lastName), Some(p.age), Some(p.heightCm), Some(p.weightKg))
  }

  /** Validating a `PatientCreate` body: every field is required and must meet its `PatientBase`
      constraint; the failing fields are named in declaration order. */
  function ValidatePatient(i: PatientIn): (r: Result<PatientFields, seq<string>>)
    ensures r.Success? <==> i.firstName.Some? && i.lastName.Some? && i.age.Some? && i.heightCm.Some?
                            && i.weightKg.Some?
                            && ValidPatient(PatientFields(i.firstName.value, i.lastName.value, i.age.value,
                                                          i.heightCm.value, i.weightKg.value))
    ensures r.Success? ==> Sent(r.value) == i
    ensures r.Failure? ==> r.error != [] && |r.error| <= 5
    ensures r.Failure? ==> forall f :: f in r.error ==> f in PatientFieldNames
    ensures r.Failure? ==> ("first_name" in r.error <==> !(i.firstName.Some? && NameOk(i.firstName.value)))
    ensures r.Failure? ==> ("last_name" in r.error <==> !(i.lastName.Some? && NameOk(i.lastName.value)))
    ensures r.Failure? ==> ("age" in r.error <==> !(i.age.Some? && i.age.value > 0))
    ensures r.Failure? ==> ("height_cm" in r.error <==> !(i.heightCm.Some? && i.heightCm.value > 0.0))
    ensures r.Failure? ==> ("weight_kg" in r.error <==> !(i.weightKg.Some? && i.weightKg.value > 0.0))
  {
    var errs := RequiredErrors("first_name", i.firstName, NameOk) + RequiredErrors("last_name", i.lastName, NameOk)
                + RequiredErrors("age", i.age, (a: int) => a > 0)
                + RequiredErrors("height_cm", i.heightCm, (h: real) => h > 0.0)
                + RequiredErrors("weight_kg", i.weightKg, (w: real) => w > 0.0);
    if errs != [] then Failure(errs)
    else Success(PatientFields(i.firstName.value, i.lastName.value, i.age.value, i.heightCm.value, i.weightKg.value))
  }

  /** A body that sends every field is validated field by field: it is accepted, unchanged, exactly
      when the columns are valid, and otherwise refused naming the fields `PatientErrors` names. */
  lemma ValidateSent(p: PatientFields)
    ensures ValidatePatient(Sent(p)) == if ValidPatient(p) then Success(p) else Failure(PatientErrors(p))
  {
  }

  /** A field of an update body: not sent, sent as JSON null, or sent with a value. */
  datatype Patch<T> = Unset | Null | Set(value: T)

  /** A sent value passes the same constraint as in the full model; null and absent pass. */
  predicate PatchOk<T>(p: Patch<T>, ok: T -> bool) {
    p.Set? ==> ok(p.value)
  }

  /** The value a field has after `sqlmodel_update` with the fields that were sent. */
  function Pick<T>(p: Patch<T>, current: T): T {
    if p.Set? then p.value else current
  }

  /** `PatientUpdate`: every field optional. */
  datatype PatientUpdate = PatientUpdate(
    firstName: Patch<string>, lastName: Patch<string>, age: Patch<int>,
    heightCm: Patch<real>, weightKg: Patch<real>)

  predicate ValidPatientUpdate(u: PatientUpdate) {
    PatchOk(u.firstName, NameOk) && PatchOk(u.lastName, NameOk) && PatchOk(u.age, (a: int) => a > 0)
    && PatchOk(u.heightCm, (h: real) => h > 0.0) && PatchOk(u.weightKg, (w: real) => w > 0.0)
  }

  /** The fields of a `PatientUpdate` body that fail their constraint, in declaration order. */
  function PatientUpdateErrors(u: PatientUpdate): (errs: seq<string>)
    ensures errs == [] <==> ValidPatientUpdate(u)
    ensures |errs| <= 5
  {
    (if PatchOk(u.firstName, NameOk) then [] else ["first_name"])
    + (if PatchOk(u.lastName, NameOk) then [] else ["last_name"])
    + (if PatchOk(u.age, (a: int) => a > 0) then [] else ["age"])
    + (if PatchOk(u.heightCm, (h: real) => h > 0.0) then [] else ["height_cm"])
    + (if PatchOk(u.weightKg, (w: real) => w > 0.0) then [] else ["weight_kg"])
  }

  /** Some field was sent as an explicit null; the database refuses it, every column being NOT NULL. */
  predicate SendsNull(u: PatientUpdate) {
    u.firstName.Null? || u.lastName.Null? || u.age.Null? || u.heightCm.Null? || u.weightKg.Null?
  }

  /** `patient.sqlmodel_update(patient_in.model_dump(exclude_unset=True))` on the columns. */
  function ApplyUpdate(p: PatientFields, u: PatientUpdate): PatientFields {
    PatientFields(Pick(u.firstName, p.firstName), Pick(u.lastName, p.lastName), Pick(u.age, p.age),
                  Pick(u.heightCm, p.heightCm), Pick(u.weightKg, p.weightKg))
  }

  /** Only the fields that were sent with a value change, each to the value sent; the fields
      left out keep their column values. */
  lemma ApplyUpdateChangesOnlySent(p: PatientFields, u: PatientUpdate)
    ensures u.firstName.Unset? ==> ApplyUpdate(p, u).firstName == p.firstName
    ensures u.firstName.Set? ==> ApplyUpdate(p, u).firstName == u.firstName.value
    ensures u.lastName.Unset? ==> ApplyUpdate(p, u).lastName == p.lastName
    ensures u.lastName.Set? ==> ApplyUpdate(p, u).lastName == u.lastName.value
    ensures u.age.Unset? ==> ApplyUpdate(p, u).age == p.age
    ensures u.age.Set? ==> ApplyUpdate(p, u).age == u.age.value
    ensures u.heightCm.Unset? ==> ApplyUpdate(p, u).heightCm == p.heightCm
    ensures u.heightCm.Set? ==> ApplyUpdate(p, u).heightCm == u.heightCm.value
    ensures u.weightKg.Unset? ==> ApplyUpdate(p, u).weightKg == p.weightKg
    ensures u.weightKg.Set? ==> ApplyUpdate(p, u).weightKg == u.weightKg.value
  {
  }

  /** Validity is kept: a valid patient updated by a valid body that sends no null is valid. */
  lemma ApplyUpdateKeepsValid(p: PatientFields, u: PatientUpdate)
    requires ValidPatient(p) && PatientUpdateErrors(u) == [] && !SendsNull(u)
    ensures ValidPatient(ApplyUpdate(p, u))
  {
  }

  /** An update sending every field replaces the record with exactly what was sent, so a full
      `PatientCreate` body sent as an update leaves the same columns as creating it. */
  lemma FullUpdateReplaces(p: PatientFields, q: PatientFields)
    ensures ApplyUpdate(p, PatientUpdate(Set(q.firstName), Set(q.lastName), Set(q.age), Set(q.heightCm), Set(q.weightKg))) == q
  {
  }

  // ---------------------------------------------------------------- users and tokens

  /** `UserCreate` (`UserBase` and a password) once validated, defaults filled in. */
  datatype UserCreate = UserCreate(email: string, isActive: bool, isSuperuser: bool, fullName: Option<string>, password: string)

  /** A `UserCreate` body, field by field. The flags are plain `bool` fields with a default, so
      leaving one out takes the default while sending it as null is refused. */
  datatype UserCreateIn = UserCreateIn(email: Option<string>, isActive: Patch<bool>, isSuperuser: Patch<bool>,
                                       fullName: Option<string>, password: Option<string>)

  /** A flag that is not null: left out, or sent with a value. */
  predicate FlagOk(p: Patch<bool>) {
    !p.Null?
  }

  function UserCreateErrors(i: UserCreateIn): seq<string> {
    RequiredErrors("email", i.email, BoundedOk)
    + (if FlagOk(i.isActive) then [] else ["is_active"]) + (if FlagOk(i.isSuperuser) then [] else ["is_superuser"])
    + OptionalErrors("full_name", i.fullName, BoundedOk) + RequiredErrors("password", i.password, PasswordOk)
  }

  /** Validating a `UserCreate` body: an email of at most 255 characters and a password of 8 to 40
      are required, a full name of at most 255 is optional; `is_active` left out is true and
      `is_superuser` left out is false, and neither may be null. */
  function ValidateUserCreate(i: UserCreateIn): (r: Result<UserCreate, seq<string>>)
    ensures r.Success? <==> i.email.Some? && BoundedOk(i.email.value) && OptionalOk(i.fullName, BoundedOk)
                            && i.password.Some? && PasswordOk(i.password.value)
                            && FlagOk(i.isActive) && FlagOk(i.isSuperuser)
    ensures r.Success? ==> r.value.email == i.email.value && r.value.password == i.password.value
                           && r.value.fullName == i.fullName
    ensures r.Success? ==> (i.isActive.Unset? ==> r.value.isActive) && (i.isSuperuser.Unset? ==> !r.value.isSuperuser)
    ensures r.Success? ==> (i.isActive.Set? ==> r.value.isActive == i.isActive.value)
                           && (i.isSuperuser.Set? ==> r.value.isSuperuser == i.isSuperuser.value)
    ensures r.Failure? ==> r.error != [] && |r.error| <= 5
  {
    var errs := UserCreateErrors(i);
    if errs != [] then Failure(errs)
    else Success(UserCreate(i.email.value, Pick(i.isActive, true), Pick(i.isSuperuser, false),
                            i.fullName, i.password.value))
  }

  /** `UserRegister` once validated. */
  datatype UserRegister = UserRegister(email: string, password: string, fullName: Option<string>)

  /** Validating a `UserRegister` body: the same bounds as `UserCreate`, without the flags. */
  function ValidateUserRegister(email: Option<string>, password: Option<string>, fullName: Option<string>)
    : (r: Result<UserRegister, seq<string>>)
    ensures r.Success? <==> email.Some? && BoundedOk(email.value) && password.Some? && PasswordOk(password.value)
                            && OptionalOk(fullName, BoundedOk)
    ensures r.Success? ==> r.value == UserRegister(email.value, password.value, fullName)
  {
    var errs := RequiredErrors("email", email, BoundedOk) + RequiredErrors("password", password, PasswordOk)
                + OptionalErrors("full_name", fullName, BoundedOk);
    if errs != [] then Failure(errs) else Success(UserRegister(email.value, password.value, fullName))
  }

  /** `UserUpdate` and `UserUpdateMe`: an email (at most 255), a full name (at most 255) and, for
      `UserUpdate`, a password (8 to 40), each optional. `UserUpdate` also inherits the two flags
      of `UserBase`, which may be left out but not sent as null; `UserUpdateMe` has no flags, which
      is the case where both are `Unset`. */
  function UserUpdateErrors(email: Option<string>, isActive: Patch<bool>, isSuperuser: Patch<bool>,
                            fullName: Option<string>, password: Option<string>)
    : (errs: seq<string>)
    ensures errs == [] <==> OptionalOk(email, BoundedOk) && FlagOk(isActive) && FlagOk(isSuperuser)
                            && OptionalOk(fullName, BoundedOk) && OptionalOk(password, PasswordOk)
    ensures "is_active" in errs <==> !FlagOk(isActive)
    ensures "is_superuser" in errs <==> !FlagOk(isSuperuser)
  {
    OptionalErrors("email", email, BoundedOk)
    + (if FlagOk(isActive) then [] else ["is_active"]) + (if FlagOk(isSuperuser) then [] else ["is_superuser"])
    + OptionalErrors("full_name", fullName, BoundedOk) + OptionalErrors("password", password, PasswordOk)
  }

  /** `UpdatePassword`: both passwords must be 8 to 40 characters long. */
  function UpdatePasswordErrors(current: Option<string>, newPassword: Option<string>): (errs: seq<string>)
    ensures errs == [] <==> current.Some? && PasswordOk(current.value) && newPassword.Some? && PasswordOk(newPassword.value)
  {
    RequiredErrors("current_password", current, PasswordOk) + RequiredErrors("new_password", newPassword, PasswordOk)
  }

  /** `NewPassword`: a token of any length and a new password of 8 to 40 characters. */
  function NewPasswordErrors(token: Option<string>, newPassword: Option<string>): (errs: seq<string>)
    ensures errs == [] <==> token.Some? && newPassword.Some? && PasswordOk(newPassword.value)
  {
    RequiredErrors("token", token, (t: string) => true) + RequiredErrors("new_password", newPassword, PasswordOk)
  }

  /** `Token`: an access token and its type, `"bearer"` unless given. */
  datatype Token = Token(accessToken: string, tokenType: string)

  function MakeToken(accessToken: string, tokenType: Option<string>): (t: Token)
    ensures t.accessToken == accessToken
    ensures t.tokenType == if tokenType.Some? then tokenType.value else "bearer"
  {
    Token(accessToken, match tokenType case Some(k) => k case None => "bearer")
  }
}

=== FILE: patients.dfy ===
/** The `/patients` routes. Each route is first a function from the tables before the request to
    the response and the tables after it; the handlers that change rows are methods on the session,
    proved to follow those functions. A request body is validated before the handler runs, so a 422
    comes before any 404 or 400. */
module Patients {
  import opened Wrappers
  import Models
  import opened Store

  const PatientDeleted := "Patient deleted successfully"
  const MedicationRemoved := "Medication removed from patient successfully"

  // ---------------------------------------------------------------- reads

  /** `read_patients`: a superuser pages through every patient, anyone else through their own;
      the count covers the whole listing, not the page. */
  function ReadPatients(t: Tables, user: User, skip: int, limit: int): (r: Result<Page<Patient>, Error>)
    ensures r.Failure? <==> skip < 0 || limit < 0
    ensures r.Success? ==> |r.value.data| <= limit && r.value.count == |Visible(t.patients, user)|
    ensures r.Success? && user.isSuperuser ==> r.value.count == |t.patients|
    ensures r.Success? ==> forall k :: 0 <= k < |r.value.data| ==>
              r.value.data[k] in t.patients && (user.isSuperuser || r.value.data[k].ownerId == user.id)
    ensures r.Success? ==> Window(Visible(t.patients, user), skip, limit) == Success(r.value.data)
  {
    var visible := Visible(t.patients, user);
    match Window(visible, skip, limit)
    case Failure(e) => Failure(e)
    case Success(rows) => Success(Page(rows, |visible|))
  }

  /** A page from the start that is as long as the table holds every patient the caller owns. */
  lemma FirstPageHoldsOwned(t: Tables, user: User, limit: int, p: Patient)
    requires limit >= |t.patients| && p in t.patients && p.ownerId == user.id
    ensures p in ReadPatients(t, user, 0, limit).value.data
  {
    var visible := Visible(t.patients, user);
    if !user.isSuperuser {
      OwnedByComplete(t.patients, user.id, p);
    }
    assert Window(visible, 0, limit) == Success(visible[0..]);
    assert visible[0..] == visible;
  }

  /** `read_patient`: the patient, once the ownership check passes. */
  function ReadPatient(t: Tables, user: User, id: Id): (r: Result<Patient, Error>)
    ensures r.Failure? <==> Authorize(t.patients, user, id).Failure?
    ensures r.Failure? ==> r.error == Authorize(t.patients, user, id).error
    ensures r.Success? ==> r.value in t.patients && r.value.id == id && (user.isSuperuser || r.value.ownerId == user.id)
  {
    match Authorize(t.patients, user, id)
    case Failure(e) => Failure(e)
    case Success(k) => Success(t.patients[k])
  }

  /** The medication rows for a list of ids, in list order; ids without a row are skipped. */
  function Resolve(ms: seq<Medication>, ids: seq<Id>): (r: seq<Medication>)
    ensures |r| <= |ids|
  {
    if ids == [] then []
    else
      (match FindMedication(ms, ids[0]) case None => [] case Some(k) => [ms[k]]) + Resolve(ms, ids[1..])
  }

  /** When every id has a row, resolving keeps one row per id, each with that id. */
  lemma {:induction false} ResolveExact(ms: seq<Medication>, ids: seq<Id>)
    requires forall m :: m in ids ==> FindMedication(ms, m).Some?
    ensures |Resolve(ms, ids)| == |ids|
    ensures forall k :: 0 <= k < |ids| ==> Resolve(ms, ids)[k].id == ids[k]
  {
    if ids != [] {
      assert ids[0] in ids;
      forall m | m in ids[1..] ensures FindMedication(ms, m).Some? {
        assert m in ids;
      }
      ResolveExact(ms, ids[1..]);
    }
  }

  /** `read_patient_medications`: a Python slice `[skip:skip+limit]` of the patient's medications,
      and their total count. */
  function ReadPatientMedications(t: Tables, user: User, id: Id, skip: int, limit: int)
    : (r: Result<Page<Medication>, Error>)
    ensures r.Failure? <==> Authorize(t.patients, user, id).Failure?
    ensures r.Failure? ==> r.error == Authorize(t.patients, user, id).error
    ensures r.Success? ==> r.value.count == |t.patients[Authorize(t.patients, user, id).value].medications|
    ensures r.Success? ==> |r.value.data| <= r.value.count
  {
    match Authorize(t.patients, user, id)
    case Failure(e) => Failure(e)
    case Success(k) =>
      var links := t.patients[k].medications;
      Success(Page(PySlice(Resolve(t.medications, links), skip, skip + limit), |links|))
  }

  /** The count does not depend on the paging, and a page with a non-negative offset and limit
      holds the linked medications from that offset on, in link order. */
  lemma PatientMedicationsPaging(t: Tables, user: User, id: Id, skip: int, limit: int)
    requires Valid(t) && Authorize(t.patients, user, id).Success?
    requires skip >= 0 && limit >= 0
    ensures var r := ReadPatientMedications(t, user, id, skip, limit).value;
            var links := t.patients[Authorize(t.patients, user, id).value].medications;
            r.count == ReadPatientMedications(t, user, id, 0, 0).value.count
            && |r.data| == (if skip + limit <= |links| then limit else if skip <= |links| then |links| - skip else 0)
            && forall j :: 0 <= j < |r.data| ==> r.data[j].id == links[skip + j]
  {
    var k := Authorize(t.patients, user, id).value;
    var links := t.patients[k].medications;
    ResolveExact(t.medications, links);
    SliceIsWindow(Resolve(t.medications, links), skip, limit);
  }

  // ---------------------------------------------------------------- create and update

  /** `create_patient`: the body is validated, then the new row, owned by the caller, is
      appended. `newId` is the UUID the model's default factory draws; one already in use, or an
      age that does not fit its column, makes the insert fail. */
  function Created(t: Tables, user: User, newId: Id, body: Models.PatientIn): (r: (Result<Patient, Error>, Tables))
    ensures Models.ValidatePatient(body).Failure? ==>
              r.0 == Failure(Unprocessable(Models.ValidatePatient(body).error))
    ensures r.0.Success? <==> Models.ValidatePatient(body).Success? && FindPatient(t.patients, newId).None?
                              && PatientFits(Models.ValidatePatient(body).value)
    ensures Models.ValidatePatient(body).Success? && r.0.Failure? ==> r.0 == Failure(ServerError)
    ensures r.0.Failure? ==> r.1 == t
    ensures r.0.Success? ==> r.0.value.ownerId == user.id && r.0.value.id == newId
                             && Models.Sent(r.0.value.fields) == body && Models.ValidPatient(r.0.value.fields)
                             && r.0.value.medications == [] && r.1.patients == t.patients + [r.0.value]
                             && r.1.medications == t.medications
  {
    match Models.ValidatePatient(body)
    case Failure(errs) => (Failure(Unprocessable(errs)), t)
    case Success(fields) =>
      if FindPatient(t.patients, newId).Some? || !PatientFits(fields) then (Failure(ServerError), t)
      else
        var p := Patient(newId, user.id, fields, []);
        (Success(p), t.(patients := t.patients + [p]))
  }

  /** A created patient can be read back by its creator, exactly as it was returned. */
  lemma CreateThenRead(t: Tables, user: User, newId: Id, body: Models.PatientIn)
    requires Created(t, user, newId, body).0.Success?
    ensures var (r, after) := Created(t, user, newId, body);
            ReadPatient(after, user, newId) == r
  {
    var (r, after) := Created(t, user, newId, body);
    var n := |t.patients|;
    assert after.patients[n] == r.value;
    assert FindPatient(after.patients, newId) == Some(n) by {
      forall k | 0 <= k < n ensures after.patients[k].id != newId {
        assert after.patients[k] == t.patients[k];
      }
      FindPatientFirst(after.patients, newId, n);
    }
  }

  /** The id lookup finds the first row with the id. */
  lemma {:induction false} FindPatientFirst(ps: seq<Patient>, id: Id, n: nat)
    requires n < |ps| && ps[n].id == id
    requires forall k :: 0 <= k < n ==> ps[k].id != id
    ensures FindPatient(ps, id) == Some(n)
  {
    if n > 0 {
      FindPatientFirst(ps[1..], id, n - 1);
    }
  }

  /** `update_patient`: after validation and the ownership check, the sent fields replace the
      stored ones; a field sent as null, or an age that does not fit its column, makes the commit
      fail. */
  function Updated(t: Tables, user: User, id: Id, u: Models.PatientUpdate): (r: (Result<Patient, Error>, Tables))
    ensures Models.PatientUpdateErrors(u) != [] ==> r.0 == Failure(Unprocessable(Models.PatientUpdateErrors(u)))
    ensures Models.PatientUpdateErrors(u) == [] && Authorize(t.patients, user, id).Failure? ==>
              r.0 == Failure(Authorize(t.patients, user, id).error)
    ensures r.0.Success? <==> Models.PatientUpdateErrors(u) == [] && Authorize(t.patients, user, id).Success?
                              && !Models.SendsNull(u)
                              && PatientFits(Models.ApplyUpdate(t.patients[Authorize(t.patients, user, id).value].fields, u))
    ensures Models.PatientUpdateErrors(u) == [] && Authorize(t.patients, user, id).Success? && r.0.Failure? ==>
              r.0 == Failure(ServerError)
    ensures r.0.Failure? ==> r.1 == t
    ensures r.0.Success? ==>
              var k := Authorize(t.patients, user, id).value;
              var old_ := t.patients[k];
              r.0.value == old_.(fields := Models.ApplyUpdate(old_.fields, u))
              && r.1 == t.(patients := t.patients[k := r.0.value])
  {
    var errs := Models.PatientUpdateErrors(u);
    if errs != [] then (Failure(Unprocessable(errs)), t)
    else match Authorize(t.patients, user, id)
      case Failure(e) => (Failure(e), t)
      case Success(k) =>
        var fields := Models.ApplyUpdate(t.patients[k].fields, u);
        if Models.SendsNull(u) || !PatientFits(fields) then (Failure(ServerError), t)
        else
          var p := t.patients[k].(fields := fields);
          (Success(p), t.(patients := t.patients[k := p]))
  }

  /** An update keeps the row's id, owner and medication links, and touches no other row. */
  lemma UpdateKeepsKeys(t: Tables, user: User, id: Id, u: Models.PatientUpdate)
    requires Updated(t, user, id, u).0.Success?
    ensures var (r, after) := Updated(t, user, id, u);
            var k := Authorize(t.patients, user, id).value;
            r.value.id == id && r.value.ownerId == t.patients[k].ownerId
            && r.value.medications == t.patients[k].medications
            && |after.patients| == |t.patients| && after.medications == t.medications
            && forall j :: 0 <= j < |t.patients| && j != k ==> after.patients[j] == t.patients[j]
  {
  }

  // ---------------------------------------------------------------- delete

  /** `delete_patient`: the row is removed, and with it its medication links. */
  function Deleted(t: Tables, user: User, id: Id): (r: (Result<string, Error>, Tables))
    ensures r.0.Failure? <==> Authorize(t.patients, user, id).Failure?
    ensures r.0.Failure? ==> r.0.error == Authorize(t.patients, user, id).error && r.1 == t
    ensures r.0.Success? ==> r.0.value == PatientDeleted && r.1.medications == t.medications
    ensures r.0.Success? ==> |r.1.patients| == |t.patients| - 1
  {
    match Authorize(t.patients, user, id)
    case Failure(e) => (Failure(e), t)
    case Success(k) => (Success(PatientDeleted), t.(patients := t.patients[..k] + t.patients[k + 1..]))
  }

  /** After a delete no patient has the id, every other patient stays, and they keep their order:
      the rows before the deleted one keep their positions, the rows after it move up by one. */
  lemma DeleteRemovesExactly(t: Tables, user: User, id: Id)
    requires Valid(t) && Deleted(t, user, id).0.Success?
    ensures var after := Deleted(t, user, id).1;
            FindPatient(after.patients, id).None?
            && forall p :: p in t.patients && p.id != id ==> p in after.patients
    ensures var after := Deleted(t, user, id).1;
            var k := FindPatient(t.patients, id).value;
            forall j :: 0 <= j < |after.patients| ==> after.patients[j] == t.patients[if j < k then j else j + 1]
  {
    var k := Authorize(t.patients, user, id).value;
    var after := Deleted(t, user, id).1;
    assert after.patients == t.patients[..k] + t.patients[k + 1..];
    assert FindPatient(t.patients, id).value == k;
    RemoveAtOnly(t.patients, k);
    forall j | 0 <= j < |after.patients| ensures after.patients[j] == t.patients[if j < k then j else j + 1] {
    }
  }

  /** Removing the row at `k` from rows with distinct ids leaves no row with its id and every
      other row. */
  lemma RemoveAtOnly(ps: seq<Patient>, k: nat)
    requires k < |ps| && forall i, j :: 0 <= i < j < |ps| ==> ps[i].id != ps[j].id
    ensures var rest := ps[..k] + ps[k + 1..];
            (forall j :: 0 <= j < |rest| ==> rest[j].id != ps[k].id)
            && forall p :: p in ps && p.id != ps[k].id ==> p in rest
  {
    var rest := ps[..k] + ps[k + 1..];
    forall j | 0 <= j < |rest| ensures rest[j].id != ps[k].id {
      if j < k {
        assert rest[j] == ps[j];
      } else {
        assert rest[j] == ps[j + 1];
      }
    }
    forall p | p in ps && p.id != ps[k].id ensures p in rest {
      var j :| 0 <= j < |ps| && ps[j] == p;
      if j < k {
        assert rest[j] == p;
      } else {
        assert rest[j - 1] == p;
      }
    }
  }


  // ---------------------------------------------------------------- medication links

  /** `assign_medication_to_patient`: after the ownership check and the medication lookup, the
      medication is appended to the patient's list unless it is already there. */
  function Assigned(t: Tables, user: User, id: Id, medId: Id): (r: (Result<Patient, Error>, Tables))
    ensures Authorize(t.patients, user, id).Failure? ==> r.0 == Failure(Authorize(t.patients, user, id).error)
    ensures Authorize(t.patients, user, id).Success? && FindMedication(t.medications, medId).None? ==>
              r.0 == Failure(MedicationNotFound)
    ensures r.0.Success? <==> Authorize(t.patients, user, id).Success? && FindMedication(t.medications, medId).Some?
    ensures r.0.Failure? ==> r.1 == t
    ensures r.0.Success? ==>
              var k := Authorize(t.patients, user, id).value;
              medId in r.0.value.medications && r.1 == t.(patients := t.patients[k := r.0.value])
              && r.0.value == t.patients[k].(medications := r.0.value.medications)
              && r.0.value.medications == if medId in t.patients[k].medications then t.patients[k].medications
                                          else t.patients[k].medications + [medId]
  {
    match Authorize(t.patients, user, id)
    case Failure(e) => (Failure(e), t)
    case Success(k) =>
      if FindMedication(t.medications, medId).None? then (Failure(MedicationNotFound), t)
      else if medId in t.patients[k].medications then
        assert t.patients[k := t.patients[k]] == t.patients;
        (Success(t.patients[k]), t)
      else
        var p := t.patients[k].(medications := t.patients[k].medications + [medId]);
        (Success(p), t.(patients := t.patients[k := p]))
  }

  /** Assigning twice is assigning once: same response, same tables. */
  lemma AssignIdempotent(t: Tables, user: User, id: Id, medId: Id)
    ensures var (r1, t1) := Assigned(t, user, id, medId);
            Assigned(t1, user, id, medId) == (r1, t1)
  {
    var (r1, t1) := Assigned(t, user, id, medId);
    if r1.Success? {
      var k := Authorize(t.patients, user, id).value;
      assert t1.patients[k] == r1.value;
      assert FindPatient(t1.patients, id) == FindPatient(t.patients, id) by {
        SameIdsSameLookup(t.patients, t1.patients, id);
      }
      assert t1.patients[k := r1.value] == t1.patients;
    }
  }

  /** Rows with the same ids in the same places are looked up alike. */
  lemma {:induction false} SameIdsSameLookup(ps: seq<Patient>, qs: seq<Patient>, id: Id)
    requires |ps| == |qs| && forall j :: 0 <= j < |ps| ==> ps[j].id == qs[j].id
    ensures FindPatient(ps, id) == FindPatient(qs, id)
  {
    if ps != [] {
      SameIdsSameLookup(ps[1..], qs[1..], id);
    }
  }

  /** `list.remove`: the list without the first occurrence of `x`, or unchanged without one. */
  function RemoveFirst(xs: seq<Id>, x: Id): (r: seq<Id>)
    ensures x !in xs ==> r == xs
    ensures x in xs ==> |r| == |xs| - 1
    ensures forall y :: y in r ==> y in xs
  {
    if xs == [] then []
    else if xs[0] == x then xs[1..]
    else [xs[0]] + RemoveFirst(xs[1..], x)
  }

  /** In a list without duplicates, removing an id removes it entirely and keeps the other ids
      in their order. */
  lemma {:induction false} RemoveFirstDistinct(xs: seq<Id>, x: Id)
    requires Distinct(xs)
    ensures x !in RemoveFirst(xs, x) && Distinct(RemoveFirst(xs, x))
    ensures forall y :: y in xs && y != x ==> y in RemoveFirst(xs, x)
  {
    if xs != [] {
      DistinctTail(xs);
      if xs[0] != x {
        var rest := RemoveFirst(xs[1..], x);
        RemoveFirstDistinct(xs[1..], x);
        assert RemoveFirst(xs, x) == [xs[0]] + rest;
        DistinctCons(xs[0], rest);
        forall y | y in xs && y != x ensures y in [xs[0]] + rest {
          if y != xs[0] {
            ConsMember(xs, y);
          }
        }
      }
    }
  }

  /** What occurs in a list and is not its head occurs in its tail. */
  lemma ConsMember(xs: seq<Id>, y: Id)
    requires y in xs && y != xs[0]
    ensures y in xs[1..]
  {
    var j :| 0 <= j < |xs| && xs[j] == y;
    assert xs[1..][j - 1] == y;
  }


  /** `remove_medication_from_patient`: after the ownership check and the medication lookup, the
      medication is removed from the patient's list if it is there; the success message is the
      same either way. */
  function Removed(t: Tables, user: User, id: Id, medId: Id): (r: (Result<string, Error>, Tables))
    ensures Authorize(t.patients, user, id).Failure? ==> r.0 == Failure(Authorize(t.patients, user, id).error)
    ensures Authorize(t.patients, user, id).Success? && FindMedication(t.medications, medId).None? ==>
              r.0 == Failure(MedicationNotFound)
    ensures r.0.Success? <==> Authorize(t.patients, user, id).Success? && FindMedication(t.medications, medId).Some?
    ensures r.0.Success? ==> r.0.value == MedicationRemoved
    ensures r.0.Failure? ==> r.1 == t
    ensures r.0.Success? ==>
              var k := Authorize(t.patients, user, id).value;
              var links := t.patients[k].medications;
              r.1 == t.(patients := t.patients[k := t.patients[k].(medications := RemoveFirst(links, medId))])
  {
    match Authorize(t.patients, user, id)
    case Failure(e) => (Failure(e), t)
    case Success(k) =>
      if FindMedication(t.medications, medId).None? then (Failure(MedicationNotFound), t)
      else
        var p := t.patients[k];
        if medId in p.medications then
          (Success(MedicationRemoved), t.(patients := t.patients[k := p.(medications := RemoveFirst(p.medications, medId))]))
        else
          assert t.patients[k := p.(medications := RemoveFirst(p.medications, medId))] == t.patients;
          (Success(MedicationRemoved), t)
  }

  /** After a removal the medication is no longer linked to the patient, every other link stays,
      and removing again changes nothing. */
  lemma RemoveUnlinks(t: Tables, user: User, id: Id, medId: Id)
    requires Valid(t) && Removed(t, user, id, medId).0.Success?
    ensures var after := Removed(t, user, id, medId).1;
            var k := Authorize(t.patients, user, id).value;
            medId !in after.patients[k].medications
            && (forall m :: m in t.patients[k].medications && m != medId ==> m in after.patients[k].medications)
            && Removed(after, user, id, medId) == (Success(MedicationRemoved), after)
  {
    var k := Authorize(t.patients, user, id).value;
    var after := Removed(t, user, id, medId).1;
    RemoveFirstDistinct(t.patients[k].medications, medId);
    SameIdsSameLookup(t.patients, after.patients, id);
    var again := Removed(after, user, id, medId).1;
    assert again.patients[k] == after.patients[k];
    assert again.patients == after.patients;
  }

  // ---------------------------------------------------------------- validity is kept

  /** Every route that changes rows keeps the tables valid. */
  lemma CreateKeepsValid(t: Tables, user: User, newId: Id, body: Models.PatientIn)
    requires Valid(t)
    ensures Valid(Created(t, user, newId, body).1)
  {
    var (r, after) := Created(t, user, newId, body);
    if r.Success? {
      var n := |t.patients|;
      forall k | 0 <= k < n ensures after.patients[k] == t.patients[k] { }
      assert after.patients[n] == r.value;
    }
  }

  lemma UpdateKeepsValid(t: Tables, user: User, id: Id, u: Models.PatientUpdate)
    requires Valid(t)
    ensures Valid(Updated(t, user, id, u).1)
  {
    var (r, after) := Updated(t, user, id, u);
    if r.Success? {
      var k := Authorize(t.patients, user, id).value;
      Models.ApplyUpdateKeepsValid(t.patients[k].fields, u);
    }
  }

  lemma DeleteKeepsValid(t: Tables, user: User, id: Id)
    requires Valid(t)
    ensures Valid(Deleted(t, user, id).1)
  {
    var (r, after) := Deleted(t, user, id);
    if r.Success? {
      var k := Authorize(t.patients, user, id).value;
      forall j | 0 <= j < |after.patients| ensures after.patients[j] == t.patients[if j < k then j else j + 1] {
      }
    }
  }

  lemma AssignKeepsValid(t: Tables, user: User, id: Id, medId: Id)
    requires Valid(t)
    ensures Valid(Assigned(t, user, id, medId).1)
  {
    var (r, after) := Assigned(t, user, id, medId);
    if r.Success? {
      var k := Authorize(t.patients, user, id).value;
      var links := t.patients[k].medications;
      if medId !in links {
        var more := links + [medId];
        assert Distinct(more) by {
          DistinctSnoc(links, medId);
        }
        forall m | m in more ensures FindMedication(t.medications, m).Some? {
          if m != medId {
            assert m in links;
          }
        }
      }
    }
  }

  lemma RemoveKeepsValid(t: Tables, user: User, id: Id, medId: Id)
    requires Valid(t)
    ensures Valid(Removed(t, user, id, medId).1)
  {
    var (r, after) := Removed(t, user, id, medId);
    if r.Success? {
      var k := Authorize(t.patients, user, id).value;
      RemoveFirstDistinct(t.patients[k].medications, medId);
    }
  }

  // ---------------------------------------------------------------- handlers

  method CreatePatient(db: Session, user: User, newId: Id, body: Models.PatientIn) returns (r: Result<Patient, Error>)
    modifies db
    ensures (r, db.State()) == Created(old(db.State()), user, newId, body)
  {
    var v := Models.ValidatePatient(body);
    if v.Failure? {
      return Failure(Unprocessable(v.error));
    }
    if FindPatient(db.patients, newId).Some? || !PatientFits(v.value) {
      return Failure(ServerError);
    }
    var patient := Patient(newId, user.id, v.value, []);
    db.patients := db.patients + [patient];
    return Success(patient);
  }

  method UpdatePatient(db: Session, user: User, id: Id, u: Models.PatientUpdate) returns (r: Result<Patient, Error>)
    modifies db
    ensures (r, db.State()) == Updated(old(db.State()), user, id, u)
  {
    var errs := Models.PatientUpdateErrors(u);
    if errs != [] {
      return Failure(Unprocessable(errs));
    }
    var auth := Authorize(db.patients, user, id);
    if auth.Failure? {
      return Failure(auth.error);
    }
    var patient := db.patients[auth.value];
    var fields := Models.ApplyUpdate(patient.fields, u);
    if Models.SendsNull(u) || !PatientFits(fields) {
      return Failure(ServerError);
    }
    patient := patient.(fields := fields);
    db.patients := db.patients[auth.value := patient];
    return Success(patient);
  }

  method DeletePatient(db: Session, user: User, id: Id) returns (r: Result<string, Error>)
    modifies db
    ensures (r, db.State()) == Deleted(old(db.State()), user, id)
  {
    var auth := Authorize(db.patients, user, id);
    if auth.Failure? {
      return Failure(auth.error);
    }
    var k := auth.value;
    db.patients := db.patients[..k] + db.patients[k + 1..];
    return Success(PatientDeleted);
  }

  method AssignMedicationToPatient(db: Session, user: User, id: Id, medId: Id) returns (r: Result<Patient, Error>)
    modifies db
    ensures (r, db.State()) == Assigned(old(db.State()), user, id, medId)
  {
    var auth := Authorize(db.patients, user, id);
    if auth.Failure? {
      return Failure(auth.error);
    }
    if FindMedication(db.medications, medId).None? {
      return Failure(MedicationNotFound);
    }
    var patient := db.patients[auth.value];
    if medId !in patient.medications {
      patient := patient.(medications := patient.medications + [medId]);
      db.patients := db.patients[auth.value := patient];
    }
    return Success(patient);
  }

  method RemoveMedicationFromPatient(db: Session, user: User, id: Id, medId: Id) returns (r: Result<string, Error>)
    modifies db
    ensures (r, db.State()) == Removed(old(db.State()), user, id, medId)
  {
    var auth := Authorize(db.patients, user, id);
    if auth.Failure? {
      return Failure(auth.error);
    }
    if FindMedication(db.medications, medId).None? {
      return Failure(MedicationNotFound);
    }
    var patient := db.patients[auth.value];
    if medId in patient.medications {
      patient := patient.(medications := RemoveFirst(patient.medications, medId));
      db.patients := db.patients[auth.value := patient];
    }
    return Success(MedicationRemoved);
  }
}

=== FILE: rag.dfy ===
/** The retrieval helpers of the medication agent: the fixed corpus of medication notes, the
    lookup of the notes a question mentions, the keyword test that decides whether a question is
    about medication, and the extraction of a message's text. */
module Rag {
  import opened Wrappers
  import Text

  /** One corpus entry: the lower-case key looked for in a question, and its note. */
  datatype Doc = Doc(key: string, note: string)

  /** `MED_CORPUS`, in its insertion order. */
  const MedCorpus: seq<Doc> := [
    Doc("aspirin",
        "Aspirin (acetylsalicylic acid) is an analgesic, antipyretic, and antiplatelet agent. Typical adult dose "
        + "for pain is 325-650 mg every 4-6 hours (maximum 4 g per 24 h). Low-dose regimens (81-325 mg once daily) "
        + "are used for cardiovascular prophylaxis. Aspirin is the color orange."),
    Doc("ibuprofen",
        "Ibuprofen is a non-steroidal anti-inflammatory drug used for pain, inflammation and fever. Standard OTC "
        + "adult dose is 200-400 mg every 4-6 hours (max 1.2 g/24 h without physician supervision; up to 2.4 g "
        + "with prescription). Ibuprofen is the color grey."),
    Doc("acetaminophen",
        "Acetaminophen (paracetamol) is an analgesic and antipyretic. Adult dosing is 500-1000 mg every 4-6 hours "
        + "as needed, not exceeding 3 g (3000 mg) in 24 hours to avoid hepatotoxicity. Acetaminophen is the color "
        + "white.")
  ]

  /** `list(MED_CORPUS.values())`. */
  function Notes(corpus: seq<Doc>): (r: seq<string>)
    ensures |r| == |corpus| && forall k :: 0 <= k < |corpus| ==> r[k] == corpus[k].note
  {
    seq(|corpus|, k requires 0 <= k < |corpus| => corpus[k].note)
  }

  /** The notes whose key occurs in the (already lower-cased) question, in corpus order. */
  function Hits(corpus: seq<Doc>, q: string): (r: seq<string>)
    ensures |r| <= |corpus|
  {
    if corpus == [] then []
    else (if Text.Contains(q, corpus[0].key) then [corpus[0].note] else []) + Hits(corpus[1..], q)
  }

  /** `retrieve_med_docs` over a given corpus: the notes the lower-cased question mentions, or
      every note when it mentions none. */
  function Retrieve(corpus: seq<Doc>, query: string): (r: seq<string>)
    ensures corpus != [] ==> 1 <= |r|
    ensures |r| <= |corpus|
    ensures Hits(corpus, Text.Lower(query)) == [] ==> r == Notes(corpus)
    ensures Hits(corpus, Text.Lower(query)) != [] ==> r == Hits(corpus, Text.Lower(query))
  {
    var hits := Hits(corpus, Text.Lower(query));
    if hits != [] then hits else Notes(corpus)
  }

  /** `retrieve_med_docs`. */
  function RetrieveMedDocs(query: string): (r: seq<string>)
    ensures 1 <= |r| <= 3
  {
    Retrieve(MedCorpus, query)
  }

  /** The hits of two runs of the corpus are those of the first run followed by those of the
      second: each entry contributes its note, in corpus order, exactly when its key occurs. */
  lemma {:induction false} HitsAppend(a: seq<Doc>, b: seq<Doc>, q: string)
    ensures Hits(a + b, q) == Hits(a, q) + Hits(b, q)
  {
    if a == [] {
      assert a + b == b;
    } else {
      assert (a + b)[0] == a[0];
      assert (a + b)[1..] == a[1..] + b;
      HitsAppend(a[1..], b, q);
      var head := if Text.Contains(q, a[0].key) then [a[0].note] else [];
      Text.AppendAssoc(head, Hits(a[1..], q), Hits(b, q));
    }
  }

  lemma HitsSingle(d: Doc, q: string)
    ensures Hits([d], q) == if Text.Contains(q, d.key) then [d.note] else []
  {
    assert [d][1..] == [];
  }

  /** `a` keeps some of the elements of `b`, in their order. */
  predicate IsSubsequence(a: seq<string>, b: seq<string>)
    decreases |b|
  {
    a == [] || (b != [] && ((a[0] == b[0] && IsSubsequence(a[1..], b[1..])) || IsSubsequence(a, b[1..])))
  }

  /** The hits are a subsequence of the corpus notes. */
  lemma {:induction false} HitsSubsequence(corpus: seq<Doc>, q: string)
    ensures IsSubsequence(Hits(corpus, q), Notes(corpus))
  {
    if corpus != [] {
      HitsSubsequence(corpus[1..], q);
      assert Notes(corpus)[1..] == Notes(corpus[1..]);
      var h := Hits(corpus, q);
      if Text.Contains(q, corpus[0].key) {
        assert h[0] == Notes(corpus)[0] && h[1..] == Hits(corpus[1..], q);
      } else {
        assert h == Hits(corpus[1..], q);
      }
    }
  }

  /** Every result is a subsequence of the corpus notes. */
  lemma RetrieveSubsequence(corpus: seq<Doc>, query: string)
    ensures IsSubsequence(Retrieve(corpus, query), Notes(corpus))
  {
    HitsSubsequence(corpus, Text.Lower(query));
    if Hits(corpus, Text.Lower(query)) == [] {
      SubsequenceRefl(Notes(corpus));
    }
  }

  lemma {:induction false} SubsequenceRefl(a: seq<string>)
    ensures IsSubsequence(a, a)
    decreases |a|
  {
    if a != [] {
      SubsequenceRefl(a[1..]);
    }
  }

  /** An entry whose key occurs in the lower-cased question has its note in the result, placed
      after the notes of the matching entries before it. */
  lemma RetrieveFindsMentioned(corpus: seq<Doc>, query: string, k: nat)
    requires k < |corpus| && Text.Contains(Text.Lower(query), corpus[k].key)
    ensures var before := Hits(corpus[..k], Text.Lower(query));
            |before| < |Retrieve(corpus, query)| && Retrieve(corpus, query)[|before|] == corpus[k].note
  {
    var q := Text.Lower(query);
    assert corpus == corpus[..k] + [corpus[k]] + corpus[k + 1..];
    HitsAppend(corpus[..k] + [corpus[k]], corpus[k + 1..], q);
    HitsAppend(corpus[..k], [corpus[k]], q);
    HitsSingle(corpus[k], q);
  }

  /** Conversely, every hit is the note of an entry whose key occurs in the question. */
  lemma {:induction false} HitsMentioned(corpus: seq<Doc>, q: string, j: nat)
    requires j < |Hits(corpus, q)|
    ensures exists k :: 0 <= k < |corpus| && Text.Contains(q, corpus[k].key) && Hits(corpus, q)[j] == corpus[k].note
  {
    var head := if Text.Contains(q, corpus[0].key) then [corpus[0].note] else [];
    var rest := Hits(corpus[1..], q);
    assert Hits(corpus, q) == head + rest;
    if j < |head| {
      assert Hits(corpus, q)[j] == corpus[0].note;
    } else {
      assert Hits(corpus, q)[j] == rest[j - |head|];
      HitsMentioned(corpus[1..], q, j - |head|);
      var k :| 0 <= k < |corpus[1..]| && Text.Contains(q, corpus[1..][k].key) && rest[j - |head|] == corpus[1..][k].note;
      assert corpus[1..][k] == corpus[k + 1];
    }
  }

  /** Retrieval ignores the case of ASCII letters in the question. */
  lemma RetrieveCaseInsensitive(corpus: seq<Doc>, query: string)
    ensures Retrieve(corpus, query) == Retrieve(corpus, Text.Lower(query))
  {
    Text.LowerIdempotent(query);
  }

  /** A question mentioning no key gets the whole corpus, and only such a question does: with
      `RetrieveFindsMentioned` and `HitsMentioned`, the result is exactly the mentioned notes, or
      every note. */
  lemma NoMentionGetsAll(corpus: seq<Doc>, query: string)
    ensures (forall k :: 0 <= k < |corpus| ==> !Text.Contains(Text.Lower(query), corpus[k].key))
            <==> Hits(corpus, Text.Lower(query)) == []
    ensures (forall k :: 0 <= k < |corpus| ==> !Text.Contains(Text.Lower(query), corpus[k].key))
            ==> Retrieve(corpus, query) == Notes(corpus)
  {
    var q := Text.Lower(query);
    if Hits(corpus, q) != [] {
      HitsMentioned(corpus, q, 0);
    }
    if exists k :: 0 <= k < |corpus| && Text.Contains(q, corpus[k].key) {
      var k :| 0 <= k < |corpus| && Text.Contains(q, corpus[k].key);
      assert corpus == corpus[..k] + [corpus[k]] + corpus[k + 1..];
      HitsAppend(corpus[..k] + [corpus[k]], corpus[k + 1..], q);
      HitsAppend(corpus[..k], [corpus[k]], q);
      HitsSingle(corpus[k], q);
    }
  }

  // ---------------------------------------------------------------- is_med_query

  /** The words `PHARMA_PATTERN` matches: each alternative of the pattern written out. */
  const PharmaWords: seq<string> := [
    "med", "medication", "meds", "drug", "drugs", "dose", "dosing", "dosage", "mg", "tablet",
    "aspirin", "ibuprofen", "acetaminophen"
  ]

  /** A character `\w` matches, for the ASCII range. */
  predicate IsWordChar(c: char) {
    'a' <= c <= 'z' || 'A' <= c <= 'Z' || '0' <= c <= '9' || c == '_'
  }

  /** `w` occurs in `s` at `i` as a whole word: `\b` holds on both sides. */
  predicate WordAt(s: string, w: string, i: nat) {
    i + |w| <= |s| && s[i..i + |w|] == w
    && (i == 0 || !IsWordChar(s[i - 1]))
    && (i + |w| == |s| || !IsWordChar(s[i + |w|]))
  }

  /** Some word of `words` occurs at `i` as a whole word. */
  function AnyWordAt(s: string, i: nat, words: seq<string>): (b: bool)
    ensures b <==> exists j :: 0 <= j < |words| && WordAt(s, words[j], i)
  {
    if words == [] then false
    else WordAt(s, words[0], i) || AnyWordAt(s, i, words[1..])
  }

  /** The search `PHARMA_PATTERN.search` makes, from position `i` on. */
  function SearchFrom(s: string, i: nat): bool
    requires i <= |s|
    decreases |s| - i
  {
    AnyWordAt(s, i, PharmaWords) || (i < |s| && SearchFrom(s, i + 1))
  }

  /** `is_med_query`: the lower-cased text holds one of the words as a whole word. */
  function IsMedQuery(text: string): bool {
    SearchFrom(Text.Lower(text), 0)
  }

  /** The search from `i` succeeds exactly when a word occurs at some position from `i` on. */
  lemma {:induction false} SearchFromSpec(s: string, i: nat)
    requires i <= |s|
    ensures SearchFrom(s, i) <==> exists p, j :: i <= p <= |s| && 0 <= j < |PharmaWords| && WordAt(s, PharmaWords[j], p)
    decreases |s| - i
  {
    if i < |s| {
      SearchFromSpec(s, i + 1);
    }
  }

  /** `is_med_query` holds exactly when some keyword occurs as a whole word in the lower-cased
      text. */
  lemma IsMedQuerySpec(text: string)
    ensures IsMedQuery(text) <==> exists p, j :: 0 <= p <= |text| && 0 <= j < |PharmaWords|
                                                 && WordAt(Text.Lower(text), PharmaWords[j], p)
  {
    SearchFromSpec(Text.Lower(text), 0);
  }

  /** The test ignores the case of ASCII letters. */
  lemma IsMedQueryCaseInsensitive(text: string)
    ensures IsMedQuery(text) == IsMedQuery(Text.Lower(text))
  {
    Text.LowerIdempotent(text);
  }

  /** The regular expression's `\b` at position `p`: a word character on one side of `p` and not
      on the other, the ends of the text counting as non-word. */
  predicate Boundary(s: string, p: nat)
    requires p <= |s|
  {
    (p > 0 && IsWordChar(s[p - 1])) != (p < |s| && IsWordChar(s[p]))
  }

  /** Every keyword begins and ends with a word character. */
  lemma KeywordEnds(j: nat)
    requires j < |PharmaWords|
    ensures var w := PharmaWords[j]; w != [] && IsWordChar(w[0]) && IsWordChar(w[|w| - 1])
  {
  }

  /** `WordAt` is what the pattern `\bword\b` matches: the keyword occurs at `i` with `\b` on both
      sides. A keyword glued to a word character, as `mg` in `500mg`, is therefore no match. */
  lemma WordAtIsBoundaryMatch(s: string, j: nat, i: nat)
    requires j < |PharmaWords|
    ensures var w := PharmaWords[j];
            WordAt(s, w, i) <==> i + |w| <= |s| && s[i..i + |w|] == w && Boundary(s, i) && Boundary(s, i + |w|)
  {
    var w := PharmaWords[j];
    KeywordEnds(j);
    if i + |w| <= |s| && s[i..i + |w|] == w {
      assert s[i] == w[0] && s[i + |w| - 1] == w[|w| - 1];
    }
  }

  // ---------------------------------------------------------------- extract_text

  /** A message's raw content: a list, whose items are given as `str` renders them, or any other
      value, given as `str` renders it. */
  datatype Raw = Items(items: seq<string>) | Value(text: string)

  /** What `extract_text` is given: an object with a `content` attribute, a dict (whose `content`
      key may be missing), or anything else, given as `str` renders it. */
  datatype Message = WithContent(content: Raw) | Dict(entry: Option<Raw>) | Other(text: string)

  /** `extract_text`. */
  function ExtractText(m: Message): (r: string)
    ensures m.Dict? && m.entry.None? ==> r == ""
    ensures m.Other? ==> r == m.text
  {
    var raw := match m
      case WithContent(c) => c
      case Dict(e) => (match e case Some(c) => c case None => Value(""))
      case Other(s) => Value(s);
    match raw
    case Items(xs) => Text.Join(" ", xs)
    case Value(s) => s
  }

  /** List content is joined with single spaces, and nothing is lost: items without spaces can be
      split back out of the text. */
  lemma ExtractListRoundTrip(xs: seq<string>)
    requires xs != [] && forall k :: 0 <= k < |xs| ==> ' ' !in xs[k]
    ensures ExtractText(WithContent(Items(xs))) == ExtractText(Dict(Some(Items(xs))))
    ensures Text.Split(ExtractText(WithContent(Items(xs))), ' ') == xs
  {
    Text.SplitJoin(xs, ' ');
  }
}

=== FILE: run_controller.dfy ===
/** `JsonLinesModelAdapter.run`: the guards on the HTTP response, the stream of records the
    transformer produces from its body, and the abort listener that reports cancellation. */
module RunController {
  import opened Wrappers
  import Text
  import Framer

  /** What `fetch` resolved to, as far as `run` reads it: `ok`, `status`, the text `text()` gives,
      and the body as the sequence of decoded text chunks, or None for a null body. */
  datatype Response = Response(ok: bool, status: nat, text: string, body: Option<seq<string>>)

  /** The message of the error thrown for a response whose status is not OK. */
  function StatusMessage(status: nat, body: string): (m: string)
    ensures Text.IsPrefix("Status ", m)
    ensures |m| == 9 + |Text.NatToDecimal(status)| + |body|
  {
    "Status " + Text.NatToDecimal(status) + ": " + body
  }

  /** The message of the error thrown for an OK response without a body. */
  const NullBody := "Response body is null"

  /** The status message loses nothing: the status and the body text can be read back from it. */
  lemma StatusMessageInjective(s1: nat, b1: string, s2: nat, b2: string)
    requires StatusMessage(s1, b1) == StatusMessage(s2, b2)
    ensures s1 == s2 && b1 == b2
  {
    var d1, d2 := Text.NatToDecimal(s1), Text.NatToDecimal(s2);
    assert d1 + ":" + (" " + b1) == d2 + ":" + (" " + b2) by {
      StatusMessageShape(s1, b1);
      StatusMessageShape(s2, b2);
    }
    DigitsHaveNoColon(d1);
    DigitsHaveNoColon(d2);
    ColonSplit(d1, " " + b1, d2, " " + b2);
    assert b1 == (" " + b1)[1..] && b2 == (" " + b2)[1..];
    Text.DecimalRoundTrip(s1);
    Text.DecimalRoundTrip(s2);
  }

  /** After the "Status " prefix come the digits, the colon, and the body after a space. */
  lemma StatusMessageShape(status: nat, body: string)
    ensures StatusMessage(status, body)[7..] == Text.NatToDecimal(status) + ":" + (" " + body)
  {
    var d := Text.NatToDecimal(status);
    calc {
      StatusMessage(status, body);
      "Status " + d + ": " + body;
      { Text.AppendAssoc("Status " + d, ": ", body); }
      "Status " + d + (": " + body);
      { Text.AppendAssoc("Status ", d, ": " + body); }
      "Status " + (d + (": " + body));
      { assert ": " + body == ":" + (" " + body); Text.AppendAssoc(d, ":", " " + body); }
      "Status " + (d + ":" + (" " + body));
    }
  }

  lemma DigitsHaveNoColon(d: string)
    requires forall k :: 0 <= k < |d| ==> Text.IsDigit(d[k])
    ensures ':' !in d
  {
    forall k | 0 <= k < |d| ensures d[k] != ':' {
      assert Text.IsDigit(d[k]);
    }
  }

  /** Texts that agree around a first colon agree before and after it. */
  lemma ColonSplit(x1: string, y1: string, x2: string, y2: string)
    requires ':' !in x1 && ':' !in x2 && x1 + ":" + y1 == x2 + ":" + y2
    ensures x1 == x2 && y1 == y2
  {
    var m := x1 + ":" + y1;
    Text.IndexOfAfter(x1, ':', y1);
    Text.IndexOfAfter(x2, ':', y2);
    assert x1 == m[..|x1|] && x2 == m[..|x2|];
    assert y1 == m[|x1| + 1..] && y2 == m[|x2| + 1..];
  }


  /** The two errors `run` throws can always be told apart. */
  lemma ErrorsDistinct(status: nat, body: string)
    ensures StatusMessage(status, body) != NullBody
  {
    assert StatusMessage(status, body)[0] == 'S';
    assert NullBody[0] == 'R';
  }

  /** `run` from the response on: a non-OK status throws with the status and the body text, a
      null body throws, and otherwise the body's chunks go through a fresh transformer, which is
      flushed when the body ends. The success value is what the transformer hands on downstream. */
  method Run(parse: Framer.EnvelopeParser, response: Response) returns (r: Result<seq<string>, string>)
    ensures !response.ok ==> r == Failure(StatusMessage(response.status, response.text))
    ensures response.ok && response.body.None? ==> r == Failure(NullBody)
    ensures response.ok && response.body.Some? ==>
              r == Success(Framer.StreamOutput(parse, response.body.value))
              && r.value == Framer.Records(parse, Text.Split(Framer.Concat(response.body.value), '\n'))
  {
    if !response.ok {
      return Failure(StatusMessage(response.status, response.text));
    }
    if response.body.None? {
      return Failure(NullBody);
    }
    var chunks := response.body.value;
    var transformer := new Framer.LineTransformer(parse);
    var out: seq<string> := [];
    var i := 0;
    assert chunks[i..] == chunks;
    assert out + Framer.Feed(parse, transformer.buffer, chunks).0 == Framer.Feed(parse, transformer.buffer, chunks).0;
    while i < |chunks|
      invariant 0 <= i <= |chunks|
      invariant transformer.parse == parse
      invariant Framer.Feed(parse, "", chunks).0 == out + Framer.Feed(parse, transformer.buffer, chunks[i..]).0
      invariant Framer.Feed(parse, "", chunks).1 == Framer.Feed(parse, transformer.buffer, chunks[i..]).1
    {
      Framer.FeedStep(parse, transformer.buffer, chunks, i);
      var records := transformer.Transform(chunks[i]);
      Text.AppendAssoc(out, records, Framer.Feed(parse, transformer.buffer, chunks[i + 1..]).0);
      out := out + records;
      i := i + 1;
    }
    assert Framer.Feed(parse, transformer.buffer, chunks[i..]) == ([], transformer.buffer) by {
      assert chunks[i..] == [];
    }
    assert out + [] == out;
    var last := transformer.Flush();
    out := out + last;
    Framer.ChunkBoundaryInvariance(parse, chunks);
    return Success(out);
  }

  /** What happens to an `AbortSignal` during runs: a run registers its once-only listener, or the
      signal is aborted, with a reason that may carry `detach`. */
  datatype SignalEvent = Listen | Abort(detach: bool)

  /** The signal as the listeners of `run` see it: whether it has been aborted, how many listeners
      are still waiting, and how often `onCancel` has been called. */
  datatype SignalState = SignalState(aborted: bool, listeners: nat, cancelCalls: nat)

  const Fresh := SignalState(false, 0, 0)

  /** One event. A listener added to an aborted signal never fires; aborting again does nothing;
      the first abort fires every waiting listener once, each calling `onCancel` unless the
      reason is a detach. */
  function Step(s: SignalState, e: SignalEvent): (t: SignalState)
    ensures t.cancelCalls >= s.cancelCalls
    ensures t.aborted ==> t.listeners == 0 || s.aborted
  {
    match e
    case Listen =>
      if s.aborted then s else s.(listeners := s.listeners + 1)
    case Abort(detach) =>
      if s.aborted then s
      else SignalState(true, 0, s.cancelCalls + if detach then 0 else s.listeners)
  }

  function Replay(s: SignalState, events: seq<SignalEvent>): SignalState
    decreases |events|
  {
    if events == [] then s else Replay(Step(s, events[0]), events[1..])
  }

  function ListenCount(events: seq<SignalEvent>): nat {
    if events == [] then 0 else (if events[0] == Listen then 1 else 0) + ListenCount(events[1..])
  }

  /** Replaying two runs of events is replaying the first, then the second. */
  lemma {:induction false} ReplayAppend(s: SignalState, a: seq<SignalEvent>, b: seq<SignalEvent>)
    ensures Replay(s, a + b) == Replay(Replay(s, a), b)
    decreases |a|
  {
    if a == [] {
      assert a + b == b;
    } else {
      assert (a + b)[0] == a[0];
      assert (a + b)[1..] == a[1..] + b;
      ReplayAppend(Step(s, a[0]), a[1..], b);
    }
  }

  /** Each listener calls `onCancel` at most once: the calls made plus the listeners still waiting
      never exceed the listeners ever registered. */
  lemma {:induction false} CancelBound(s: SignalState, events: seq<SignalEvent>)
    ensures Replay(s, events).cancelCalls + Replay(s, events).listeners
            <= s.cancelCalls + s.listeners + ListenCount(events)
    decreases |events|
  {
    if events != [] {
      CancelBound(Step(s, events[0]), events[1..]);
    }
  }

  /** With a single run on a signal, `onCancel` is called at most once, however often the signal
      is aborted. */
  lemma CancelAtMostOnce(events: seq<SignalEvent>)
    requires ListenCount(events) <= 1
    ensures Replay(Fresh, events).cancelCalls <= 1
  {
    CancelBound(Fresh, events);
  }

  /** Once the signal is aborted nothing that follows calls `onCancel`: neither a later abort nor
      a listener registered too late. */
  lemma {:induction false} AbortedIsFinal(s: SignalState, events: seq<SignalEvent>)
    requires s.aborted
    ensures Replay(s, events) == s
    decreases |events|
  {
    if events != [] {
      assert Step(s, events[0]) == s;
      AbortedIsFinal(s, events[1..]);
    }
  }

  /** A run whose signal is first aborted with a detach reason never calls `onCancel`; one whose
      signal is first aborted otherwise calls it exactly once, whatever happens afterwards. */
  lemma FirstAbortDecides(detach: bool, after: seq<SignalEvent>)
    ensures Replay(Fresh, [Listen, Abort(detach)] + after).cancelCalls == if detach then 0 else 1
  {
    var s := Step(Step(Fresh, Listen), Abort(detach));
    assert Replay(Fresh, [Listen, Abort(detach)]) == s by {
      var evs := [Listen, Abort(detach)];
      assert evs[0] == Listen && evs[1..] == [Abort(detach)];
      assert Replay(Fresh, evs) == Replay(Step(Fresh, Listen), [Abort(detach)]);
      assert [Abort(detach)][1..] == [];
      assert Replay(Step(Fresh, Listen), [Abort(detach)]) == Replay(s, []);
    }
    ReplayAppend(Fresh, [Listen, Abort(detach)], after);
    AbortedIsFinal(s, after);
  }

  /** The `AbortSignal` a run is given, with the `onCancel` calls its listeners make. */
  class AbortSignal {
    var aborted: bool
    var listeners: nat
    var cancelCalls: nat

    function State(): SignalState
      reads this
    {
      SignalState(aborted, listeners, cancelCalls)
    }

    constructor ()
      ensures State() == Fresh
    {
      aborted, listeners, cancelCalls := false, 0, 0;
    }

    /** `abortSignal.addEventListener("abort", ..., { once: true })` at the start of `run`. */
    method AddListener()
      modifies this
      ensures State() == Step(old(State()), Listen)
    {
      if !aborted {
        listeners := listeners + 1;
      }
    }

    /** The runtime aborting the signal, with or without a detach reason. */
    method Abort(detach: bool)
      modifies this
      ensures State() == Step(old(State()), SignalEvent.Abort(detach))
    {
      if !aborted {
        if !detach {
          cancelCalls := cancelCalls + listeners;
        }
        aborted, listeners := true, 0;
      }
    }
  }
}

=== FILE: store.dfy ===
/** The database the patient and medication routes work on: the `patient` and `medication` tables,
    the `patient_medication_link` rows kept as each patient's list of medication ids, and what the
    routes share (lookups by id, the 404-then-400 ownership check, and paging). */
module Store {
  import opened Wrappers
  import Models

  /** A UUID primary key. */
  type Id = nat

  /** The authenticated caller, as far as the routes read it. */
  datatype User = User(id: Id, isSuperuser: bool)

  /** A `patient` row, with the ids of the medications linked to it in link order. */
  datatype Patient = Patient(id: Id, ownerId: Id, fields: Models.PatientFields, medications: seq<Id>)

  /** The non-key columns of a `medication` row. */
  datatype MedicationFields = MedicationFields(brandName: string, generic: string, doseMg: int, costUsd: real)

  /** The range of the database's 32-bit `Integer` columns. */
  predicate IsInt32(n: int) {
    -0x8000_0000 <= n < 0x8000_0000
  }

  /** The column types of `patient` that validation does not already enforce: the age must fit
      its `Integer` column. The database refuses a row that does not fit. */
  predicate PatientFits(f: Models.PatientFields) {
    IsInt32(f.age)
  }

  /** The column types of `medication`: brand and generic names of at most 255 characters, and a
      dose that fits its `Integer` column. The database refuses a row that does not fit. */
  predicate FitsColumns(f: MedicationFields) {
    |f.brandName| <= 255 && |f.generic| <= 255 && IsInt32(f.doseMg)
  }

  /** A `medication` row; its owner column is nullable. */
  datatype Medication = Medication(id: Id, ownerId: Option<Id>, fields: MedicationFields)

  /** How a request fails: an `HTTPException` a route raises, the framework's 422 for a body that
      fails validation (with the failing fields), or an uncaught database error (a 500). */
  datatype Error = HttpError(status: nat, detail: string) | Unprocessable(fields: seq<string>) | ServerError

  const PatientNotFound := HttpError(404, "Patient not found")
  const NotEnoughPermissions := HttpError(400, "Not enough permissions")
  const MedicationNotFound := HttpError(404, "Medication not found")

  /** A listing: one page of rows and the count of all rows the listing covers. */
  datatype Page<T> = Page(data: seq<T>, count: nat)

  /** Both tables, rows in insertion order. */
  datatype Tables = Tables(patients: seq<Patient>, medications: seq<Medication>)

  /** `session.get(Patient, id)`: the position of the patient with that id. */
  function FindPatient(ps: seq<Patient>, id: Id): (r: Option<nat>)
    ensures r.None? <==> forall k :: 0 <= k < |ps| ==> ps[k].id != id
    ensures r.Some? ==> r.value < |ps| && ps[r.value].id == id
  {
    if ps == [] then None
    else if ps[0].id == id then Some(0)
    else match FindPatient(ps[1..], id)
      case None => None
      case Some(k) => Some(k + 1)
  }

  /** `session.get(Medication, id)`: the position of the medication with that id. */
  function FindMedication(ms: seq<Medication>, id: Id): (r: Option<nat>)
    ensures r.None? <==> forall k :: 0 <= k < |ms| ==> ms[k].id != id
    ensures r.Some? ==> r.value < |ms| && ms[r.value].id == id
  {
    if ms == [] then None
    else if ms[0].id == id then Some(0)
    else match FindMedication(ms[1..], id)
      case None => None
      case Some(k) => Some(k + 1)
  }

  predicate Distinct(xs: seq<Id>) {
    forall i, j :: 0 <= i < j < |xs| ==> xs[i] != xs[j]
  }

  /** A list without repeats loses none by dropping its head, which does not occur again. */
  lemma DistinctTail(xs: seq<Id>)
    requires xs != [] && Distinct(xs)
    ensures Distinct(xs[1..]) && xs[0] !in xs[1..]
  {
    forall i, j | 0 <= i < j < |xs[1..]| ensures xs[1..][i] != xs[1..][j] {
      assert xs[1..][i] == xs[i + 1] && xs[1..][j] == xs[j + 1];
    }
    forall j | 0 <= j < |xs[1..]| ensures xs[1..][j] != xs[0] {
      assert xs[1..][j] == xs[j + 1];
    }
  }

  /** Putting an id that does not occur in front of a list without repeats keeps it so. */
  lemma DistinctCons(x: Id, xs: seq<Id>)
    requires Distinct(xs) && x !in xs
    ensures Distinct([x] + xs)
  {
    var r := [x] + xs;
    forall i, j | 0 <= i < j < |r| ensures r[i] != r[j] {
      assert r[j] == xs[j - 1];
      if i == 0 {
        assert xs[j - 1] in xs;
      } else {
        assert r[i] == xs[i - 1];
      }
    }
  }

  /** Appending an id that does not occur to a list without repeats keeps it so. */
  lemma DistinctSnoc(xs: seq<Id>, x: Id)
    requires Distinct(xs) && x !in xs
    ensures Distinct(xs + [x])
  {
    var r := xs + [x];
    forall i, j | 0 <= i < j < |r| ensures r[i] != r[j] {
      assert r[i] == xs[i];
      if j == |xs| {
        assert xs[i] in xs;
      } else {
        assert r[j] == xs[j];
      }
    }
  }

  /** The primary keys and the link table's key (patient id, medication id) are unique, every link
      names an existing medication, every row fits its columns, and every patient satisfies the
      constraints of `PatientBase`. */
  ghost predicate Valid(t: Tables) {
    (forall i, j :: 0 <= i < j < |t.patients| ==> t.patients[i].id != t.patients[j].id)
    && (forall i, j :: 0 <= i < j < |t.medications| ==> t.medications[i].id != t.medications[j].id)
    && (forall k :: 0 <= k < |t.medications| ==> FitsColumns(t.medications[k].fields))
    && (forall k :: 0 <= k < |t.patients| ==> Models.ValidPatient(t.patients[k].fields) && PatientFits(t.patients[k].fields))
    && (forall k :: 0 <= k < |t.patients| ==> Distinct(t.patients[k].medications))
    && (forall k, m :: 0 <= k < |t.patients| && m in t.patients[k].medications ==>
          FindMedication(t.medications, m).Some?)
  }

  /** The ownership check every by-id patient route makes: 404 when no patient has the id, then
      400 when the caller is neither a superuser nor the owner; otherwise the patient's position. */
  function Authorize(ps: seq<Patient>, user: User, id: Id): (r: Result<nat, Error>)
    ensures r == Failure(PatientNotFound) <==> FindPatient(ps, id).None?
    ensures r == Failure(NotEnoughPermissions)
            <==> FindPatient(ps, id).Some? && !user.isSuperuser && ps[FindPatient(ps, id).value].ownerId != user.id
    ensures r.Success? ==> r.value < |ps| && ps[r.value].id == id && (user.isSuperuser || ps[r.value].ownerId == user.id)
  {
    match FindPatient(ps, id)
    case None => Failure(PatientNotFound)
    case Some(k) =>
      if !user.isSuperuser && ps[k].ownerId != user.id then Failure(NotEnoughPermissions) else Success(k)
  }

  /** The patients a caller owns, in table order: each owned row as often as the table holds it,
      and no other row. */
  function OwnedBy(ps: seq<Patient>, owner: Id): (r: seq<Patient>)
    ensures |r| <= |ps|
    ensures forall k :: 0 <= k < |r| ==> r[k].ownerId == owner && r[k] in ps
    ensures forall p :: multiset(r)[p] == if p.ownerId == owner then multiset(ps)[p] else 0
  {
    if ps == [] then []
    else
      assert ps == [ps[0]] + ps[1..];
      (if ps[0].ownerId == owner then [ps[0]] else []) + OwnedBy(ps[1..], owner)
  }

  /** Every patient the caller owns is listed; with the ensures of `OwnedBy`, the listing holds
      exactly the caller's patients. */
  lemma {:induction false} OwnedByComplete(ps: seq<Patient>, owner: Id, p: Patient)
    requires p in ps && p.ownerId == owner
    ensures p in OwnedBy(ps, owner)
  {
    if ps[0] != p {
      OwnedByComplete(ps[1..], owner, p);
    }
  }

  /** A superuser sees every patient, anyone else the patients they own. */
  function Visible(ps: seq<Patient>, user: User): (r: seq<Patient>)
    ensures forall p :: multiset(r)[p] == if user.isSuperuser || p.ownerId == user.id then multiset(ps)[p] else 0
  {
    if user.isSuperuser then ps else OwnedBy(ps, user.id)
  }

  /** `.offset(skip).limit(limit)` in SQL: at most `limit` rows from position `skip` on. The
      database refuses a negative offset or limit, which surfaces as a 500. */
  function Window<T>(xs: seq<T>, skip: int, limit: int): (r: Result<seq<T>, Error>)
    ensures r.Failure? <==> skip < 0 || limit < 0
    ensures r.Failure? ==> r.error == ServerError
    ensures r.Success? ==> |r.value| == if skip + limit <= |xs| then limit else if skip <= |xs| then |xs| - skip else 0
    ensures r.Success? ==> forall k :: 0 <= k < |r.value| ==> skip + k < |xs| && r.value[k] == xs[skip + k]
  {
    if skip < 0 || limit < 0 then Failure(ServerError)
    else if skip >= |xs| then Success([])
    else if skip + limit >= |xs| then Success(xs[skip..])
    else Success(xs[skip..skip + limit])
  }

  /** Where a Python slice bound falls: negative bounds count from the end; both are clamped. */
  function SliceBound(i: int, n: nat): (b: nat)
    ensures b <= n
    ensures 0 <= i <= n ==> b == i
  {
    if i < 0 then (if i + n < 0 then 0 else i + n) else if i > n then n else i
  }

  /** Python's `xs[start:stop]`. */
  function PySlice<T>(xs: seq<T>, start: int, stop: int): (r: seq<T>)
    ensures |r| <= |xs|
  {
    var lo, hi := SliceBound(start, |xs|), SliceBound(stop, |xs|);
    if lo < hi then xs[lo..hi] else []
  }

  /** For a non-negative offset and limit, the Python slice `xs[skip:skip+limit]` and the SQL
      window give the same rows. */
  lemma SliceIsWindow<T>(xs: seq<T>, skip: int, limit: int)
    requires skip >= 0 && limit >= 0
    ensures Window(xs, skip, limit) == Success(PySlice(xs, skip, skip + limit))
  {
    var w := Window(xs, skip, limit).value;
    var s := PySlice(xs, skip, skip + limit);
    assert |w| == |s|;
    forall k | 0 <= k < |w| ensures w[k] == s[k] {
    }
    assert w == s;
  }

  /** A negative offset in the Python slice counts from the end instead of failing, as the SQL
      window does: the page starts `-skip` rows before the end. While `skip + limit` stays negative
      the page holds `limit` rows from there. Once it reaches 0 the stop is read from the start of
      the list: the page then ends at that row, or at the end of the list, and is empty when that
      row comes before its start. */
  lemma NegativeSkipCountsFromEnd<T>(xs: seq<T>, skip: int, limit: int)
    requires -|xs| <= skip < 0 && 0 <= limit
    ensures Window(xs, skip, limit).Failure?
    ensures skip + limit < 0 ==> PySlice(xs, skip, skip + limit) == xs[|xs| + skip..|xs| + skip + limit]
    ensures 0 <= skip + limit <= |xs| + skip ==> PySlice(xs, skip, skip + limit) == []
    ensures |xs| + skip < skip + limit < |xs| ==> PySlice(xs, skip, skip + limit) == xs[|xs| + skip..skip + limit]
    ensures |xs| <= skip + limit ==> PySlice(xs, skip, skip + limit) == xs[|xs| + skip..]
  {
    assert SliceBound(skip, |xs|) == |xs| + skip;
  }

  /** The connection the routes share: both tables, which committed requests change in place. */
  class Session {
    var patients: seq<Patient>
    var medications: seq<Medication>

    function State(): Tables
      reads this
    {
      Tables(patients, medications)
    }

    constructor (t: Tables)
      ensures State() == t
    {
      patients, medications := t.patients, t.medications;
    }
  }
}

=== FILE: text.dfy ===
/** String primitives the source takes from its language runtime:
    JavaScript's `trim` and `indexOf`, Python's `lower`, `in`, `join` and `split`,
    and the decimal rendering of a number inside a template string. */
module Text {
  import opened Wrappers

  /** A character JavaScript's `String.prototype.trim` removes: WhiteSpace or LineTerminator,
      that is tab, line feed, vertical tab, form feed, carriage return, space, no-break space,
      the other Unicode space separators, line and paragraph separator, and the byte order mark. */
  predicate IsJsSpace(c: char) {
    '\t' <= c <= '\r' || c == ' ' || c == '\U{00A0}' || c == '\U{1680}'
    || '\U{2000}' <= c <= '\U{200A}' || c == '\U{2028}' || c == '\U{2029}' || c == '\U{202F}'
    || c == '\U{205F}' || c == '\U{3000}' || c == '\U{FEFF}'
  }

  /** How many whitespace characters `s` starts with. */
  function LeadingSpaces(s: string): (n: nat)
    ensures n <= |s|
    ensures forall k :: 0 <= k < n ==> IsJsSpace(s[k])
    ensures n < |s| ==> !IsJsSpace(s[n])
  {
    if s == [] || !IsJsSpace(s[0]) then 0 else 1 + LeadingSpaces(s[1..])
  }

  /** How many whitespace characters `s` ends with. */
  function TrailingSpaces(s: string): (n: nat)
    ensures n <= |s|
    ensures forall k :: |s| - n <= k < |s| ==> IsJsSpace(s[k])
    ensures n < |s| ==> !IsJsSpace(s[|s| - n - 1])
  {
    if s == [] || !IsJsSpace(s[|s| - 1]) then 0 else 1 + TrailingSpaces(s[..|s| - 1])
  }

  /** `s` is empty or made of whitespace only. */
  predicate IsBlank(s: string) {
    forall k :: 0 <= k < |s| ==> IsJsSpace(s[k])
  }

  /** Where the piece `Trim` keeps starts in `s`: after the leading whitespace. */
  function TrimOffset(s: string): (i: nat)
    ensures i <= |s|
  {
    LeadingSpaces(s)
  }

  /** JavaScript's `s.trim()`: `s` without its leading and trailing whitespace. It is empty
      exactly when `s` is blank. */
  function Trim(s: string): (r: string)
    ensures r == [] <==> IsBlank(s)
  {
    var t := s[LeadingSpaces(s)..];
    assert t != [] ==> t[0] == s[LeadingSpaces(s)] && TrailingSpaces(t) < |t|;
    t[..|t| - TrailingSpaces(t)]
  }

  /** What `Trim` keeps is a contiguous middle piece of `s`, which starts and ends with a
      non-whitespace character ... */
  lemma TrimSlice(s: string)
    ensures TrimOffset(s) + |Trim(s)| <= |s|
    ensures Trim(s) == s[TrimOffset(s)..TrimOffset(s) + |Trim(s)|]
    ensures Trim(s) != [] ==> !IsJsSpace(Trim(s)[0]) && !IsJsSpace(Trim(s)[|Trim(s)| - 1])
  {
    var i := LeadingSpaces(s);
    var t := s[i..];
    var m := |t| - TrailingSpaces(t);
    assert Trim(s) == t[..m];
    MiddlePiece(s, i, m);
  }

  /** The first `m` elements from position `i` on are the middle piece `s[i..i + m]`, whose ends
      are those of `s[i..]`'s first `m` elements. */
  lemma MiddlePiece<T>(s: seq<T>, i: nat, m: nat)
    requires i + m <= |s|
    ensures s[i..][..m] == s[i..i + m]
    ensures m > 0 ==> s[i..][..m][0] == s[i] && s[i..][..m][m - 1] == s[i..][m - 1]
  {
  }

  /** ... and everything before and after that piece is whitespace. */
  lemma TrimDropsOnlySpace(s: string)
    ensures forall k :: 0 <= k < TrimOffset(s) ==> IsJsSpace(s[k])
    ensures forall k :: TrimOffset(s) + |Trim(s)| <= k < |s| ==> IsJsSpace(s[k])
  {
    var i := LeadingSpaces(s);
    var t := s[i..];
    var m := |t| - TrailingSpaces(t);
    assert |Trim(s)| == m;
    forall k | i + m <= k < |s| ensures IsJsSpace(s[k]) {
      assert s[k] == t[k - i];
    }
  }

  /** JavaScript's `s.indexOf(c)` for a one-character needle: the first position of `c`,
      or None where the source gets -1. */
  function IndexOf(s: string, c: char): (r: Option<nat>)
    ensures r.None? <==> c !in s
    ensures r.Some? ==> r.value < |s| && s[r.value] == c && c !in s[..r.value]
  {
    if s == [] then None
    else if s[0] == c then Some(0)
    else match IndexOf(s[1..], c)
      case None => None
      case Some(i) => assert s[1..][..i] == s[1..i + 1]; Some(i + 1)
  }

  /** The position `IndexOf` finds right after a prefix that does not hold `c`. */
  lemma IndexOfAfter(x: string, c: char, y: string)
    requires c !in x
    ensures IndexOf(x + [c] + y, c) == Some(|x|)
  {
    var s := x + [c] + y;
    assert s[..|x|] == x;
    assert s[|x|] == c;
  }

  /** Python's `str.lower()` on one character, for the ASCII letters. */
  function LowerChar(c: char): char {
    if 'A' <= c <= 'Z' then (c as int + 32) as char else c
  }

  /** Python's `str.lower()`, folding ASCII letters only. */
  function Lower(s: string): (r: string)
    ensures |r| == |s| && forall i :: 0 <= i < |s| ==> r[i] == LowerChar(s[i])
  {
    seq(|s|, i requires 0 <= i < |s| => LowerChar(s[i]))
  }

  lemma LowerIdempotent(s: string)
    ensures Lower(Lower(s)) == Lower(s)
  {
  }

  /** The first element of a non-empty `a + b` is that of `a`, and the rest is `a[1..] + b`. */
  lemma ConsAppend<T>(a: seq<T>, b: seq<T>)
    requires a != []
    ensures (a + b)[0] == a[0] && (a + b)[1..] == a[1..] + b
  {
  }

  lemma AppendAssoc<T>(a: seq<T>, b: seq<T>, c: seq<T>)
    ensures a + (b + c) == (a + b) + c
  {
  }

  /** `k` is a prefix of `s`. */
  predicate IsPrefix(k: string, s: string) {
    |k| <= |s| && s[..|k|] == k
  }

  /** Python's `k in s` for strings: `k` occurs in `s` as a contiguous substring. */
  predicate Contains(s: string, k: string)
    decreases |s|
  {
    IsPrefix(k, s) || (s != [] && Contains(s[1..], k))
  }

  /** `Contains` holds exactly when `k` starts at some position of `s`. */
  lemma {:induction false} ContainsAt(s: string, k: string, i: nat)
    requires i <= |s| && IsPrefix(k, s[i..])
    ensures Contains(s, k)
    decreases i
  {
    if i > 0 {
      assert s[1..][i - 1..] == s[i..];
      ContainsAt(s[1..], k, i - 1);
    }
  }

  predicate IsDigit(c: char) {
    '0' <= c <= '9'
  }

  function DigitChar(d: nat): (c: char)
    requires d < 10
    ensures IsDigit(c) && c as int - '0' as int == d
  {
    ('0' as int + d) as char
  }

  /** The decimal digits of `n`, as JavaScript renders an integral number in a template string. */
  function NatToDecimal(n: nat): (r: string)
    ensures r != [] && forall k :: 0 <= k < |r| ==> IsDigit(r[k])
    ensures |r| > 1 ==> r[0] != '0'
  {
    if n < 10 then [DigitChar(n)] else NatToDecimal(n / 10) + [DigitChar(n % 10)]
  }

  function DigitValue(c: char): (d: nat)
    requires IsDigit(c)
    ensures d < 10
  {
    c as int - '0' as int
  }

  /** The number a string of decimal digits denotes. */
  function ParseDecimal(s: string): nat
    requires forall k :: 0 <= k < |s| ==> IsDigit(s[k])
  {
    if s == [] then 0 else ParseDecimal(s[..|s| - 1]) * 10 + DigitValue(s[|s| - 1])
  }

  /** Rendering a number in decimal loses nothing: parsing the digits gives the number back. */
  lemma {:induction false} DecimalRoundTrip(n: nat)
    ensures ParseDecimal(NatToDecimal(n)) == n
  {
    if n >= 10 {
      DecimalRoundTrip(n / 10);
      var r := NatToDecimal(n);
      assert r[..|r| - 1] == NatToDecimal(n / 10);
    }
  }

  /** Python's `sep.join(xs)`. */
  function Join(sep: string, xs: seq<string>): (r: string)
    ensures |xs| == 1 ==> r == xs[0]
  {
    if xs == [] then "" else if |xs| == 1 then xs[0] else xs[0] + sep + Join(sep, xs[1..])
  }

  /** Python's `s.split(c)` for a one-character separator. */
  function Split(s: string, c: char): (r: seq<string>)
    ensures r != []
    decreases |s|
  {
    match IndexOf(s, c)
    case None => [s]
    case Some(i) => [s[..i]] + Split(s[i + 1..], c)
  }

  /** Joining pieces that do not hold the separator and splitting again gives the pieces back. */
  lemma {:induction false} SplitJoin(xs: seq<string>, c: char)
    requires xs != []
    requires forall k :: 0 <= k < |xs| ==> c !in xs[k]
    ensures Split(Join([c], xs), c) == xs
  {
    if |xs| == 1 {
      assert IndexOf(xs[0], c) == None;
    } else {
      var rest := Join([c], xs[1..]);
      assert Join([c], xs) == xs[0] + [c] + rest;
      assert Split(rest, c) == xs[1..] by { SplitJoin(xs[1..], c); }
      SplitAt(xs[0], c, rest);
    }
  }

  /** Splitting text whose first separator follows `x` gives `x`, then the pieces of the rest. */
  lemma SplitAt(x: string, c: char, y: string)
    requires c !in x
    ensures Split(x + [c] + y, c) == [x] + Split(y, c)
  {
    var s := x + [c] + y;
    IndexOfAfter(x, c, y);
    assert s[..|x|] == x;
    assert s[|x| + 1..] == y;
  }
}

=== FILE: wrappers.dfy ===
/** Failure-carrying wrappers used throughout the model. */
module Wrappers {

  datatype Option<+T> = None | Some(value: T)

  /** The outcome of an operation that may raise: a value, or the error it raised. */
  datatype Result<+R, +E> = Success(value: R) | Failure(error: E)
}
